=== FILE: README.md ===
# Optimisation calculator core, modelled in Dafny

This project models the deterministic logic of a small Python calculator for
nonlinear optimisation (JoseS-Dev/Proyecto_Final_MC). The calculator hands its
symbolic and numeric work to sympy and numpy. What it does itself is modelled
and proved here:

- **Expression text** (`Utils/function_parser.py`): `^` is rewritten to `**`.
  A `*` is inserted between a digit and a letter and between a letter and a
  digit. Identifiers are extracted with a regular expression, the seven
  function names are dropped, and the rest is sorted. Equality constraints
  are validated.
- **Partial derivatives** (`Metodos/partial_derivate.py`): one stationarity
  equation per sorted variable. An empty solution list gives the bare error
  dictionary. Otherwise the first candidate of least value is reported.
- **Lagrange multipliers** (`Metodos/lagrange_method.py`): one multiplier
  `lambda{i}` per constraint, and the Lagrangian pairs multiplier i with
  constraint i. The equations cover the variables, then the multipliers.
  The multipliers are projected out of each candidate before the same
  selection.
- **Gradient descent** (`Metodos/gradient_descent.py`):
  - the default start vector;
  - the order propose, test, break, apply;
  - the `iterations` field;
  - the error record;
  - the parser lookup that, as written, always fails.
- **Dispatch** (`main.py`): which solvers run and which result keys exist,
  in which order.
- **Command-line interface** (`Interfaces/cli_interface.py`): the menu
  mapping, and the constraint verdict, which rewrites `==` to `-`,
  substitutes the point textually, evaluates, and compares with 1e-6.

sympy is the `Sympy.Engine` record: `sympify`, the free symbols, `diff`,
`solve` and `float(subs)`. `sympify`, `diff`, `solve` and `float(subs)` are
functions that return a value or the exception they raised. The free symbols
are a total function. So are the sum and product the Lagrangian is built
from (`Lagrange.Term`, `Lagrange.Lagrangian`). The numeric side of gradient
descent is the `GradientDescent.Numeric` record: `lambdify`, the step test
`norm(x_new - x) < tolerance`, and evaluation at a point. `eval` and `str` in
the interface are parameters. Clock readings are parameters named `elapsed`.
Python exceptions are `Wrappers.Exception` values with a kind and a text.
A `try`/`except` becomes a `Result` that is matched. The result
dictionaries are `BaseOptimizer.Outcome`:
- `Solved`: the five keys;
- `Failed`: the bare `{'error': ...}`;
- `FailedRecord`: the record with `'N/A'` and an `error` key.

Each stateful class (`PartialDerivateOptimizer`, `LagrangeMethod`,
`GradientDescent`) is a Dafny class with `computation_time` and `iterations`
fields that start at 0. Every `solve` writes `computation_time` on success.
Only `GradientDescent` writes `iterations`; the two analytic methods never
change it. The selection loops, the Lagrangian loop, the descent loop and the
constraint check are methods with loops. The dispatch is a method of guarded
insertions, without a loop. Each method is proved equal to a specification
function, and the lemmas are proved about those functions.

Notes on the code as written:
- Lagrange passes the constraint strings to sympify unchanged
  (Metodos/lagrange_method.py:25).
- Lagrange keeps candidates that leave a variable unbound
  (Metodos/lagrange_method.py:52). The evaluation of such a candidate raises
  and fails the whole call.
- Lagrange with zero constraints creates no multipliers
  (Metodos/lagrange_method.py:29) and solves the critical-point system
  (`Lagrange.NoConstraintsIsCriticalPointSearch`).
- `main` adds no `lagrange` entry at all when there are no constraints.
- The analytic methods fail with a bare one-key dictionary
  (Metodos/partial_derivate.py:32, :55).
- A residual of exactly 1e-6 counts as satisfied.
- The `iterations` field is written only after an applied update, so a break
  at index 0 keeps the old value.

## Model

| member | source | states |
|---|---|---|
| `Wrappers.MapResult` | Metodos/lagrange_method.py:25 | A comprehension whose elements may raise: on success one value per element in order; it fails iff some element raises, and then with the exception of the first one that raised |
| `Wrappers.MapResultPrefixFailure` | Metodos/lagrange_method.py:25 | Once an element raises, the elements after it are never evaluated: the outcome is the prefix's |
| `Strings.Below` | Metodos/base_optimizer.py:24 | Python's string `<`: only a non-empty name has anything below it, and a proper prefix comes before the longer name |
| `Strings.BelowTotal` | Metodos/base_optimizer.py:24 | Python's string `<` orders any two distinct names one way or the other |
| `Strings.BelowTransitive` | Metodos/base_optimizer.py:24 | Python's string `<` is transitive |
| `Strings.SortUnique` | Metodos/base_optimizer.py:24 | `sorted` of a set of names: strictly ascending, with exactly the given names |
| `Strings.AscendingUnique` | Metodos/base_optimizer.py:24 | Two strictly ascending lists with the same names are equal, so the sorted result does not depend on the set's iteration order |
| `Strings.Replace` | Utils/function_parser.py:12 | `str.replace` with a non-empty pattern: a replacement no longer than the pattern never lengthens the text, one no shorter never shortens it |
| `Strings.ReplaceAbsent` | Utils/function_parser.py:12 | `str.replace` of a pattern that does not occur returns the text unchanged |
| `Strings.ReplaceCharConcat` | Interfaces/cli_interface.py:99 | Replacing a one-character name works piecewise: the replacement in a concatenation is the concatenation of the replacements |
| `Strings.ReplaceChar` | Interfaces/cli_interface.py:99 | On one character, the name's character becomes the value's text and any other character stays |
| `Strings.ReplaceCharAbsent` | Interfaces/cli_interface.py:99 | A text without the name's character is unchanged |
| `Strings.ReplaceOccurrence` | Interfaces/cli_interface.py:99 | A lone occurrence of a one-character name is replaced where it stands, whatever characters surround it, including inside a longer identifier |
| `Strings.DecimalRoundTrip` | Metodos/lagrange_method.py:29 | The decimal text of a number, as in the multiplier names, reads back as that number |
| `Strings.DecimalInjective` | Metodos/lagrange_method.py:29 | Distinct numbers have distinct decimal texts |
| `BaseOptimizer.Variables` | Metodos/base_optimizer.py:22-24 | The variable list is strictly ascending by name and holds exactly the names of the free symbols |
| `BaseOptimizer.Gradient` | Metodos/base_optimizer.py:30-32 | One derivative per variable, in the variables' order; it fails iff differentiating by some variable raises |
| `BaseOptimizer.FirstLeast` | Metodos/partial_derivate.py:35-42 | The index a strict `<` scan keeps: its value is at most every value and strictly below every earlier one, so the first minimum wins ties |
| `BaseOptimizer.FirstMinimum` | Metodos/partial_derivate.py:35-42 | The selection finds no candidate only when the candidate list is empty |
| `BaseOptimizer.SelectFirstMinimum` | Metodos/partial_derivate.py:38-42 | The loop over the candidates yields the first candidate of least value with that value, or the first exception an evaluation raised |
| `BaseOptimizer.AnalyticOutcome` | Metodos/partial_derivate.py:31-55 | Never the record form; no candidates gives the no-solutions error; a success reports one of the candidates, with one iteration and the method's name and time |
| `BaseOptimizer.AnalyticSolved` | Metodos/partial_derivate.py:38-52 | A success has one iteration, the method's name and time, and reports an unchanged candidate whose value is least and strictly below every earlier candidate's |
| `BaseOptimizer.AnalyticFailed` | Metodos/partial_derivate.py:31-55 | Failures are one-key dictionaries: empty candidates give the no-solutions message; otherwise the call fails iff some evaluation raises, with the prefix and the first exception's text |
| `FunctionParser.ExpandCarets` | Utils/function_parser.py:12 | The `^` rewrite never shortens the text |
| `FunctionParser.ExpandCaretsAbsent` | Utils/function_parser.py:12 | A text without `^` is unchanged by the rewrite (used by `Normalize` for its identity case) |
| `FunctionParser.ExpandCaretsConcat` | Utils/function_parser.py:12 | The caret rewrite works piecewise: rewriting a concatenation is concatenating the rewrites, so characters keep their order |
| `FunctionParser.ExpandCaretsChar` | Utils/function_parser.py:12 | A `^` becomes exactly `**`; any other character stays itself |
| `FunctionParser.ExpandCaretsRemovesAll` | Utils/function_parser.py:12 | No `^` is left after the rewrite |
| `FunctionParser.Substitute` | Utils/function_parser.py:13-14 | `re.sub` never shortens the text, keeps its first character, and leaves a text with no pair to join unchanged |
| `FunctionParser.SubstituteSplicesEveryPair` | Utils/function_parser.py:13-14 | The left-to-right, non-overlapping `re.sub` inserts a `*` at exactly every joined digit/letter pair, so none is missed |
| `FunctionParser.SplicedAddsOnlyStars` | Utils/function_parser.py:13-14 | Splicing adds no character other than `*` |
| `FunctionParser.SplicedSeparates` | Utils/function_parser.py:13-14 | After splicing, the rule joins no adjacent pair, and no pair of the other rule is created |
| `FunctionParser.SplicedIdentity` | Utils/function_parser.py:13-14 | A text with no pair to join is left unchanged |
| `FunctionParser.Normalize` | Utils/function_parser.py:12-14 | Normalising never shortens the text; a text with no `^` and no digit next to a letter reaches sympify unchanged |
| `FunctionParser.NormalizeSeparates` | Utils/function_parser.py:12-14 | After normalising, no `^` remains and no digit touches a letter in either order |
| `FunctionParser.NormalizeIdempotent` | Utils/function_parser.py:12-14 | Normalising twice is normalising once |
| `FunctionParser.ParseFunction` | Utils/function_parser.py:8-18 | It succeeds iff sympify accepts the normalised text; every failure is a ValueError carrying `Error parseando función: ` and sympify's message |
| `FunctionParser.RunEnd` | Utils/function_parser.py:24 | The end of the maximal run of word characters starting at a position |
| `FunctionParser.FindIdentifiers` | Utils/function_parser.py:24 | Every word found is an identifier: non-empty, starting with a letter or `_`, and made of word characters |
| `FunctionParser.FindIdentifiersTokens` | Utils/function_parser.py:24 | `findall` returns exactly the maximal word runs that start with a letter or `_` and follow no word character, so `x2` is found and the `x` of `2x` is not |
| `FunctionParser.DropMathFunctions` | Utils/function_parser.py:26-27 | It keeps exactly the names that are not among the seven function names |
| `FunctionParser.ExtractVariables` | Utils/function_parser.py:21-27 | The result is strictly ascending and holds a name iff it is a qualifying identifier of the text and not a function name |
| `FunctionParser.ContainsDoubleEquals` | Utils/function_parser.py:32 | `'==' in s` iff two adjacent `=` occur in `s` |
| `FunctionParser.ValidateConstraint` | Utils/function_parser.py:30-34 | It returns the text unchanged iff it contains `==`; otherwise it raises ValueError with the fixed message |
| `PartialDerivate.Analyse` | Metodos/partial_derivate.py:22-29 | A sympify failure is passed on unchanged; on success the objective is the parsed text, the variables ascend, there is one equation per variable, and the solutions are solve's answer for them |
| `PartialDerivate.Stationarity` | Metodos/partial_derivate.py:22-29 | The system solved: the variables sorted by name, one derivative per variable in that order, handed to solve |
| `PartialDerivate.CriticalPointResult` | Metodos/partial_derivate.py:18-55 | Never the record form; an exception before selection gives a one-key error; a success reports one of solve's solutions, with one iteration and 'Partial Derivatives' |
| `PartialDerivate.NoSolutions` | Metodos/partial_derivate.py:31-32 | No solutions gives exactly `{'error': 'No se encontraron soluciones'}` |
| `PartialDerivate.LeastCriticalPoint` | Metodos/partial_derivate.py:35-52 | A success reports an unchanged solution whose value is no greater than any other's and strictly below every earlier one's, with one iteration and the name 'Partial Derivatives' |
| `PartialDerivate.Failures` | Metodos/partial_derivate.py:54-55 | Every failure is a one-key dictionary; an exception before selection gives the prefix and its text; every other failure than no-solutions starts with the prefix |
| `PartialDerivate.PartialDerivateOptimizer.constructor` | Metodos/base_optimizer.py:9-11 | Both fields start at 0 |
| `PartialDerivate.PartialDerivateOptimizer.Solve` | Metodos/partial_derivate.py:8-55 | The method computes the specified dictionary and ignores the constraints; it writes `computation_time` only on success |
| `Lagrange.MultiplierName` | Metodos/lagrange_method.py:29 | Each multiplier name is `lambda` followed by at least one more character (the index, read back by `Strings.DecimalRoundTrip`) |
| `Lagrange.Multipliers` | Metodos/lagrange_method.py:29 | One multiplier per constraint, named `lambda0` to `lambda{k-1}` in index order |
| `Lagrange.MultipliersDistinct` | Metodos/lagrange_method.py:29 | The multiplier names are pairwise distinct |
| `Lagrange.Lagrangian` | Metodos/lagrange_method.py:32-34 | Peeling one summand per constraint off `L` succeeds and ends at the objective |
| `Lagrange.LagrangianTerms` | Metodos/lagrange_method.py:32-34 | The Lagrangian is the objective followed by exactly one term per constraint, the i-th being `lambda{i}` times constraint i |
| `Lagrange.BuildLagrangian` | Metodos/lagrange_method.py:32-34 | The accumulation loop builds that Lagrangian |
| `Lagrange.Project` | Metodos/lagrange_method.py:52 | A candidate point keeps exactly the solution's entries for objective variables, with the solution's values |
| `Lagrange.Projections` | Metodos/lagrange_method.py:50-52 | One projected point per solution, in order |
| `Lagrange.Analyse` | Metodos/lagrange_method.py:24-41 | A sympify failure of the objective is passed on; on success there is one parsed constraint and one multiplier per constraint, |vars| + k equations, and solve's answer for the variables followed by the multipliers |
| `Lagrange.LagrangeSystem` | Metodos/lagrange_method.py:24-41 | The constraints are parsed unchanged and in order; there are |vars| + k equations, the sorted variables' first and then the multipliers' in index order, each a derivative of the Lagrangian |
| `Lagrange.NoConstraintsIsCriticalPointSearch` | Metodos/lagrange_method.py:29-41 | With no constraints there are no multipliers and the system is exactly the partial-derivatives one |
| `Lagrange.LagrangeResult` | Metodos/lagrange_method.py:18-72 | Never the record form; an exception before selection gives a one-key error; a success's point is keyed only by objective variables, with one iteration and 'Lagrange Multipliers' |
| `Lagrange.NoSolutions` | Metodos/lagrange_method.py:43-44 | No solutions gives exactly the bare no-solutions error |
| `Lagrange.LeastProjectedPoint` | Metodos/lagrange_method.py:47-69 | A success reports the projection of the first least solution: keys only objective variables, so no multiplier unless the objective has a symbol of that name; one iteration, 'Lagrange Multipliers' |
| `Lagrange.Failures` | Metodos/lagrange_method.py:50-72 | Failures are one-key dictionaries; a candidate whose evaluation raises (say, one missing a variable) is not skipped but fails the whole call |
| `Lagrange.LagrangeMethod.constructor` | Metodos/base_optimizer.py:9-11 | Both fields start at 0 |
| `Lagrange.LagrangeMethod.Solve` | Metodos/lagrange_method.py:9-72 | The method computes the specified dictionary; it writes `computation_time` only on success |
| `GradientDescent.LookupParser` | Metodos/gradient_descent.py:30 | Of the two names `solve` can look its parser up under, only `_parser_function` resolves, to sympify; `_parse_function` raises AttributeError with Python's message |
| `GradientDescent.StartVector` | Metodos/gradient_descent.py:34-37 | One coordinate per sorted variable: the given value, or 0.0 when missing or when no start point is given; extra keys are ignored |
| `GradientDescent.Step` | Metodos/gradient_descent.py:49 | The proposed point is `x - rate * g` coordinatewise, and exists iff the gradient has one entry per coordinate; otherwise numpy's ValueError naming both shapes |
| `GradientDescent.NextIterate` | Metodos/gradient_descent.py:46-49 | A proposed point has as many coordinates as the current one |
| `GradientDescent.Iterate` | Metodos/gradient_descent.py:44-56 | Every point reached after applied updates has as many coordinates as the start vector |
| `GradientDescent.Descent` | Metodos/gradient_descent.py:44-56 | The point the loop ends on has as many coordinates as the start vector |
| `GradientDescent.DescentFrom` | Metodos/gradient_descent.py:44-56 | From any index, every applied update was a rejected small-step test; the loop stops only at the bound, at a small step (not applied) or at an exception |
| `GradientDescent.DescentSpec` | Metodos/gradient_descent.py:44-56 | The returned point is the iterate after `updates` applied updates; a break leaves the rejected step unapplied; updates never exceed max(0, max_iterations) |
| `GradientDescent.NeverBreaks` | Metodos/gradient_descent.py:44-56 | If no step is small and none raises, the loop applies exactly max_iterations updates |
| `GradientDescent.PointOf` | Metodos/gradient_descent.py:59 | The optimal point is keyed by exactly the variable names |
| `GradientDescent.PointOfAt` | Metodos/gradient_descent.py:59 | With distinct names, the entry for the i-th variable is the i-th coordinate |
| `GradientDescent.PointOfCoordinates` | Metodos/gradient_descent.py:59 | With distinct names each variable maps to its own coordinate |
| `GradientDescent.ErrorRecord` | Metodos/gradient_descent.py:72-80 | The error record has 0 iterations, the name 'Gradient Descent' and the six keys including `error` |
| `GradientDescent.IterationsAfter` | Metodos/gradient_descent.py:56 | Each applied update writes its own count, so after some updates the field is their number; with none it keeps its old value |
| `GradientDescent.DescentResult` | Metodos/gradient_descent.py:26-80 | Never the bare error dictionary; a record has 0 iterations and the clock reading; a success needs the parser name `_parser_function` and reports the field's new value, the clock reading and 'Gradient Descent' |
| `GradientDescent.AsWrittenNeverSolves` | Metodos/gradient_descent.py:28-80 | As written, every call returns the AttributeError record for `_parse_function` and leaves the field unchanged |
| `GradientDescent.ResolvedSolved` | Metodos/gradient_descent.py:59-70 | With the parser resolved, a success covers every variable by name with the coordinates of the iterate after the applied updates, and reports the field's new `iterations` |
| `GradientDescent.ResolvedCanSolve` | Metodos/gradient_descent.py:9-70 | With the parser resolved, `x**2` from the default start point is solved |
| `GradientDescent.FreshIterationsBound` | Metodos/gradient_descent.py:44-56 | On a fresh object the field ends between 0 and max(0, max_iterations) |
| `GradientDescent.GradientDescent.constructor` | Metodos/base_optimizer.py:9-11 | Both fields start at 0 |
| `GradientDescent.GradientDescent.Descend` | Metodos/gradient_descent.py:44-56 | The loop computes the specified run and writes `iterations` after each applied update only, so with no update it keeps its old value |
| `GradientDescent.GradientDescent.SolveWith` | Metodos/gradient_descent.py:26-80 | The body of `solve` computes the specified dictionary and field value; it writes `computation_time` only on success |
| `GradientDescent.GradientDescent.Solve` | Metodos/gradient_descent.py:9-80 | As written: always the AttributeError record, no field changed |
| `GradientDescent.GradientDescent.SolveResolved` | Metodos/gradient_descent.py:9-80 | With `_parser_function` called: the specified dictionary and `iterations` value |
| `MainProgram.SelectedKeys` | main.py:21-59 | For a selector: each key iff the selector is 'all' or its name, `lagrange` only with constraints; the keys come in the order gradient, lagrange, partial, unconstrained, and no other key occurs |
| `MainProgram.Results` | main.py:21-59 | The keys of `results`, in insertion order, are exactly the selected keys |
| `MainProgram.ResultKeySet` | main.py:21-59 | Each key is present iff the selector is 'all' or its name, `lagrange` only with constraints; keys come in the order gradient, lagrange, partial, unconstrained |
| `MainProgram.UnknownSelector` | main.py:21-59 | Any other selector leaves the results empty |
| `MainProgram.MenuSelectionRuns` | main.py:34-43 | From a menu choice the results are empty exactly for option 3 (Lagrange) with no constraints |
| `MainProgram.ResultEntries` | main.py:23-59 | Each entry is its solver's dictionary. The gradient entry is always the AttributeError record for `_parse_function` with the clock reading, since `solve` as written asks for a parser no class defines; Lagrange and partial derivatives get the objective and the constraint list as given |
| `MainProgram.Dispatch` | main.py:21-59 | The guarded insertions compute the specified results, with gradient descent's `solve` as written |
| `CliInterface.SelectorFor` | Interfaces/cli_interface.py:48-62 | Every input maps to one of the five selectors; anything but '1' to '5' maps to 'all' |
| `CliInterface.MenuRoundTrip` | Interfaces/cli_interface.py:40-54 | The menu offers each selector under exactly one digit: choosing a selector's digit gives it back, and back again |
| `CliInterface.Substitute` | Interfaces/cli_interface.py:98-99 | Substitution raises iff some key is a sympy symbol, always with the `replace` TypeError |
| `CliInterface.SubstituteInOrder` | Interfaces/cli_interface.py:98-99 | The names are substituted in the point's iteration order, one after the other |
| `CliInterface.SubstitutesInsideIdentifiers` | Interfaces/cli_interface.py:99 | Substitution is textual: with `x := 2`, `x+xy` becomes `2+2y`; it follows from `Strings.ReplaceCharConcat` and `Strings.ReplaceOccurrence` |
| `CliInterface.Residual` | Interfaces/cli_interface.py:96-100 | The text 'N/A' raises the `items` AttributeError, a symbol key raises the `replace` TypeError, and `eval` is reached only when every key is a string |
| `CliInterface.CheckAll` | Interfaces/cli_interface.py:95-103 | The loop never answers "N/A", and a reported violation has a residual above 1e-6 in size |
| `CliInterface.CheckAllSatisfied` | Interfaces/cli_interface.py:95-103 | The loop ends with "sí" iff every constraint evaluates to a residual of size at most 1e-6 |
| `CliInterface.CheckAllViolated` | Interfaces/cli_interface.py:101-102 | A violation reports the residual of the first constraint above 1e-6; all earlier ones pass and later ones are not evaluated |
| `CliInterface.CheckAllError` | Interfaces/cli_interface.py:104-105 | An error reports the exception of the first constraint that fails to evaluate; all earlier ones pass |
| `CliInterface.VerdictCases` | Interfaces/cli_interface.py:92-103 | "N/A" exactly for an empty point or no constraints; "sí" exactly when every residual is at most 1e-6 |
| `CliInterface.CheckConstraintsVerdict` | Interfaces/cli_interface.py:90-105 | "N/A" exactly for an empty point or no constraints; a reported violation has a residual above 1e-6 in size |
| `CliInterface.VerdictText` | Interfaces/cli_interface.py:93-105 | The text is "N/A" exactly when the constraint check does not apply, and "sí" exactly when it is satisfied |
| `MainProgram.CheckedPoint` | Interfaces/cli_interface.py:81-84 | The point handed to the constraint check: a solved Lagrange or partial-derivatives point has one entry per variable, every key a sympy symbol; a gradient or unconstrained point is keyed by names; exactly the failed records give the text 'N/A' |
| `MainProgram.SolvedAnalyticPointsFail` | Interfaces/cli_interface.py:92-105 | A solved Lagrange or partial-derivatives result with a non-empty point and any constraint always gets the `replace` TypeError verdict |
| `CliInterface.NonStringKeysFail` | Interfaces/cli_interface.py:94-105 | With any constraint, a symbol-keyed point always gives the `replace` TypeError verdict, and the text 'N/A' gives the `items` AttributeError verdict |
| `CliInterface.CheckConstraintsByName` | Interfaces/cli_interface.py:92-105 | The constraint check with keys converted to names: "N/A" exactly for an empty point or no constraints, and the text 'N/A' with a constraint still gives the `items` error |
| `CliInterface.ByNameJudgesResiduals` | Interfaces/cli_interface.py:98-103 | With keys converted to their names, substitution never raises, "sí" holds exactly when every residual is small, and string-keyed points are judged as before |
| `CliInterface.RewriteCopiesHead` | Interfaces/cli_interface.py:97 | A first character other than `=` is copied by the `==` rewrite |
| `CliInterface.RewriteSkipsPlainText` | Interfaces/cli_interface.py:97 | A text without `=` passes through the rewrite unchanged |
| `CliInterface.ResidualOfEquation` | Interfaces/cli_interface.py:97 | `lhs == rhs` with no `=` in either side becomes the text `lhs - rhs`, with no parentheses added: `x == y + 1` is evaluated as `x - y + 1`, so at x=2, y=1 a satisfied constraint is reported as "no (error: 2)" |
| `CliInterface.RewriteRemovesDoubleEquals` | Interfaces/cli_interface.py:97 | No `==` survives the rewrite |
| `CliInterface.CheckConstraints` | Interfaces/cli_interface.py:90-105 | The nested loops with early returns return the text of the specified verdict |

## Left out

- sympy's algebra: parsing, free symbols, differentiation, solving, substitution and `lambdify` are oracles of `Sympy.Engine` and `GradientDescent.Numeric`. The Lagrangian is built from unevaluated `Sum`/`Product` terms; sympy's automatic simplification of `L` is not modelled.
- BaseOptimizer.SelectFirstMinimum: values are real numbers. Python's `float('inf')` and NaN, for which no value is `< inf` and `best_point` stays `None`, are not modelled.
- GradientDescent.Step: numpy broadcasting of a length-one gradient is not modelled; a length mismatch is an error. A gradient from `lambdify` of a list always has one entry per variable.
- GradientDescent.Numeric: the convergence test `norm(x_new - x_current) < tolerance` and floating-point arithmetic are abstract.
- Wall-clock time: each `time.time() - start_time` is a parameter `elapsed`.
- `eval` of the substituted constraint, and `str` of point values and residuals, are parameters of `CliInterface.CheckConstraints`.
- Metodos/unconstrained.py (a wrapper over scipy's BFGS) is not part of this model: `MainProgram.Dispatch` takes its result as a parameter.
- `get_problem_input`'s prompts and the parsing of the start point and numbers from the keyboard are I/O. `MainProgram.ProblemData` is the dictionary it returns.
- `display_comparative_results`, the plots, the banner prints and the tkinter GUI (Interfaz/interfaz_grafica.py, which imports a module that is not part of this model) are output only. The display formats `optimal_value` with `:.6f` before the constraint check (Interfaces/cli_interface.py:75). For a failure dictionary that value is 'N/A' or missing, so the formatting raises and the check is never reached. This is not modelled; `MainProgram.CheckedPoint` gives the point the check would receive.
- The BaseOptimizer helpers `_evaluate_function` and `_hessian` are not called by the modelled code.
- The regular expressions are modelled on ASCII text; Python's Unicode-aware `\d`, `\w` and `\b` are not.
- `free_symbols` and the Lagrangian's `lambdas[i] * constr` are modelled as total, because `Sympy.Expr` has only sympy expressions and no Python tuple, list or bool. Two failures follow from that and are not modelled:
  - sympify returns a plain tuple or list for an objective typed as `x, y` or `[x, y]`. `_get_variables` (Metodos/base_optimizer.py:24) then raises AttributeError because a tuple has no `free_symbols`, and Metodos/partial_derivate.py:54-55 and Metodos/lagrange_method.py:71-72 return that text with their prefix.
  - sympify turns a constraint such as `x + y == 1` into Python's `False`, and `lambdas[i] * constr` then raises TypeError.

## Findings

| source | as written | input that shows it | evidently intended | confidence | as-written member | corrected member |
|---|---|---|---|---|---|---|
| Metodos/gradient_descent.py:30 | `solve` calls `self._parse_function`, which no class defines (BaseOptimizer has `_parser_function`, Metodos/base_optimizer.py:18); the AttributeError is caught and every call returns the error record | any call, e.g. objective `x**2` with the default start point | call `_parser_function`, so the descent loop runs | high; not executed | `GradientDescent.AsWrittenNeverSolves` | `GradientDescent.GradientDescent.SolveResolved` |
| Interfaces/cli_interface.py:98-99 | `expr.replace(var, str(val))` uses the point's keys directly; Lagrange and partial-derivative points come from `solve(..., dict=True)` and are keyed by sympy symbols, so `str.replace` raises TypeError | the partial-derivatives result for objective `x**2` with constraint `x == 0` and selector 'partial': the point `{x: 0}` is keyed by the sympy symbol `x`, so `"x - 0".replace(x, "0")` raises TypeError and the verdict is "Error al evaluar restricciones: replace() argument 1 must be str, not Symbol" | substitute `str(var)`, so the residuals are judged | high; not executed | `MainProgram.SolvedAnalyticPointsFail` | `CliInterface.ByNameJudgesResiduals` |

=== FILE: base_optimizer.dfy ===
/**
 * What the optimizers share: the result record they return, the sorted
 * variable list, the gradient list, and the "first least candidate" loop that
 * the two analytic methods run over the solver's answers.
 */
module BaseOptimizer {
  import opened Wrappers
  import opened Strings
  import opened Sympy

  /**
   * The dictionary a `solve` call returns.
   *  - `Solved`: keys optimal_point, optimal_value, iterations, computation_time, method;
   *  - `Failed`: the bare one-key `{'error': ...}`;
   *  - `FailedRecord`: optimal_point and optimal_value are the text 'N/A', plus
   *    iterations, computation_time, method and error.
   */
  datatype Outcome<P> =
    | Solved(optimalPoint: P, optimalValue: real, iterations: int, computationTime: real, methodName: string)
    | Failed(error: string)
    | FailedRecord(iterations: int, computationTime: real, methodName: string, error: string)

  /** The keys of the dictionary, in insertion order. */
  function Keys<P>(o: Outcome<P>): seq<string>
  {
    match o
    case Solved(_, _, _, _, _) => ["optimal_point", "optimal_value", "iterations", "computation_time", "method"]
    case Failed(_) => ["error"]
    case FailedRecord(_, _, _, _) => ["optimal_point", "optimal_value", "iterations", "computation_time", "method", "error"]
  }

  const NO_SOLUTIONS := "No se encontraron soluciones"

  /** `_get_variables`: the free symbols of `e`, sorted by name. */
  function Variables(engine: Engine, e: Expr): (vars: seq<string>)
    ensures StrictlyAscending(vars)
    ensures forall v :: v in vars <==> v in engine.freeSymbols(e)
  {
    SortUnique(engine.freeSymbols(e))
  }

  /** `[sp.diff(e, v) for v in vars]`: one derivative per variable, in the given order. */
  function Gradient(engine: Engine, e: Expr, vars: seq<string>): (r: Result<seq<Expr>, Exception>)
    ensures r.Success? ==> |r.value| == |vars|
    ensures r.Success? ==> forall i :: 0 <= i < |vars| ==> engine.diff(e, vars[i]) == Success(r.value[i])
    ensures r.Failure? <==> exists i :: 0 <= i < |vars| && engine.diff(e, vars[i]).Failure?
  {
    MapResult(v => engine.diff(e, v), vars)
  }

  /**
   * The index of the first least value: what `if value < best_value` over the
   * candidates in order keeps, starting from `float('inf')`.
   */
  function FirstLeast(values: seq<real>): (k: nat)
    requires |values| > 0
    ensures k < |values|
    ensures forall j :: 0 <= j < |values| ==> values[k] <= values[j]
    ensures forall j :: 0 <= j < k ==> values[k] < values[j]
    decreases |values|
  {
    if |values| == 1 then 0
    else
      var k := FirstLeast(values[..|values| - 1]);
      if values[|values| - 1] < values[k] then |values| - 1 else k
  }

  datatype Choice = Choice(index: nat, value: real)

  /**
   * The outcome of the selection loop: the first candidate whose value is
   * least, `None` when there are no candidates, or the first exception an
   * evaluation raised.
   */
  function FirstMinimum<C>(cands: seq<C>, value: C -> Result<real, Exception>): (r: Result<Option<Choice>, Exception>)
    ensures r.Success? ==> (r.value.None? <==> cands == [])
  {
    match MapResult(value, cands)
    case Failure(e) => Failure(e)
    case Success(vs) =>
      if vs == [] then Success(None)
      else
        var k := FirstLeast(vs);
        Success(Some(Choice(k, vs[k])))
  }

  /** One more value seen: the first least of the longer list is the new value iff it is strictly better. */
  lemma FirstLeastSnoc(vs: seq<real>, v: real)
    requires vs != []
    ensures FirstLeast(vs + [v]) == if v < vs[FirstLeast(vs)] then |vs| else FirstLeast(vs)
  {
    assert (vs + [v])[..|vs|] == vs;
  }

  /** An exception at candidate `i`, after `i` clean evaluations, is the outcome of the selection. */
  lemma SelectFails<C>(cands: seq<C>, value: C -> Result<real, Exception>, i: nat, e: Exception)
    requires i < |cands| && value(cands[i]) == Failure(e)
    requires forall j :: 0 <= j < i ==> value(cands[j]).Success?
    ensures FirstMinimum(cands, value) == Failure(e)
  {
    var r := MapResult(value, cands);
    assert r.Failure?;
    var k :| 0 <= k < |cands| && value(cands[k]) == Failure(r.error)
             && forall j :: 0 <= j < k ==> value(cands[j]).Success?;
    assert k == i;
  }

  /** Once every candidate is evaluated, the selection is the first least of their values. */
  lemma SelectDone<C>(cands: seq<C>, value: C -> Result<real, Exception>, vs: seq<real>)
    requires |vs| == |cands| && forall j :: 0 <= j < |cands| ==> value(cands[j]) == Success(vs[j])
    ensures FirstMinimum(cands, value) == if vs == [] then Success(None)
                                          else Success(Some(Choice(FirstLeast(vs), vs[FirstLeast(vs)])))
  {
    var r := MapResult(value, cands);
    assert r.Success?;
    assert r.value == vs;
  }

  /**
   * The selection loop itself: evaluate each candidate in turn, keep it when it
   * is strictly better than the best so far, and let an exception escape.
   */
  method SelectFirstMinimum<C>(cands: seq<C>, value: C -> Result<real, Exception>)
    returns (r: Result<Option<Choice>, Exception>)
    ensures r == FirstMinimum(cands, value)
  {
    var best: Option<Choice> := None;
    ghost var vs: seq<real> := [];
    var i := 0;
    while i < |cands|
      invariant 0 <= i <= |cands| && |vs| == i
      invariant forall j :: 0 <= j < i ==> value(cands[j]) == Success(vs[j])
      invariant best.None? <==> vs == []
      invariant best.Some? ==> best.value == Choice(FirstLeast(vs), vs[FirstLeast(vs)])
    {
      match value(cands[i]) {
        case Failure(e) =>
          SelectFails(cands, value, i, e);
          return Failure(e);
        case Success(v) =>
          if vs != [] {
            FirstLeastSnoc(vs, v);
          }
          if best.None? || v < best.value.value {
            best := Some(Choice(i, v));
          }
          vs := vs + [v];
      }
      i := i + 1;
    }
    SelectDone(cands, value, vs);
    r := Success(best);
  }

  /**
   * The tail both analytic methods share: no candidates is the bare
   * `NO_SOLUTIONS` error; otherwise the first least candidate, reported with
   * `iterations == 1`; an exception while evaluating is `prefix` plus its text.
   */
  function AnalyticOutcome<P>(points: seq<P>, value: P -> Result<real, Exception>,
                              methodName: string, prefix: string, elapsed: real): (o: Outcome<P>)
    ensures !o.FailedRecord?
    ensures points == [] ==> o == Failed(NO_SOLUTIONS)
    ensures o.Solved? ==> o.optimalPoint in points && o.iterations == 1
                          && o.computationTime == elapsed && o.methodName == methodName
  {
    if points == [] then Failed(NO_SOLUTIONS)
    else
      match FirstMinimum(points, value)
      case Failure(e) => Failed(prefix + e.text)
      case Success(None) => assert false; Failed(NO_SOLUTIONS)
      case Success(Some(c)) => Solved(points[c.index], c.value, 1, elapsed, methodName)
  }

  /** A success reports the first candidate of least value, unchanged, with one iteration. */
  lemma AnalyticSolved<P>(points: seq<P>, value: P -> Result<real, Exception>,
                          methodName: string, prefix: string, elapsed: real)
    requires AnalyticOutcome(points, value, methodName, prefix, elapsed).Solved?
    ensures var o := AnalyticOutcome(points, value, methodName, prefix, elapsed);
            && o.iterations == 1 && o.methodName == methodName && o.computationTime == elapsed
            && (forall j :: 0 <= j < |points| ==>
                  value(points[j]).Success? && o.optimalValue <= value(points[j]).value)
            && exists k :: 0 <= k < |points| && o.optimalPoint == points[k]
                           && value(points[k]) == Success(o.optimalValue)
                           && forall j :: 0 <= j < k ==> o.optimalValue < value(points[j]).value
  {
    var vs := MapResult(value, points).value;
    var k := FirstLeast(vs);
    assert value(points[k]) == Success(vs[k]);
  }

  /** Every failure is a one-key dictionary: no solutions, or an exception's text after `prefix`. */
  lemma AnalyticFailed<P>(points: seq<P>, value: P -> Result<real, Exception>,
                          methodName: string, prefix: string, elapsed: real)
    ensures var o := AnalyticOutcome(points, value, methodName, prefix, elapsed);
            !o.FailedRecord? && (o.Failed? ==> Keys(o) == ["error"])
    ensures var o := AnalyticOutcome(points, value, methodName, prefix, elapsed);
            o == Failed(NO_SOLUTIONS) <== points == []
    ensures var o := AnalyticOutcome(points, value, methodName, prefix, elapsed);
            (exists i :: 0 <= i < |points| && value(points[i]).Failure?) <==>
            (points != [] && o.Failed?)
    ensures var o := AnalyticOutcome(points, value, methodName, prefix, elapsed);
            points != [] && o.Failed? ==>
            exists i :: 0 <= i < |points| && value(points[i]).Failure?
                        && o.error == prefix + value(points[i]).error.text
                        && forall j :: 0 <= j < i ==> value(points[j]).Success?
  {
  }
}

=== FILE: cli_interface.dfy ===
/**
 * `CliInterface`: the menu that turns the user's choice into a selector, and
 * `_check_constraints`, which rewrites each constraint into a residual,
 * substitutes the point into its text and judges the residual.
 */
module CliInterface {
  import opened Wrappers
  import opened Strings

  const SELECTORS: set<string> := {"all", "gradient", "lagrange", "partial", "unconstrained"}

  /** `method_opcs.get(method_opc, 'all')`. */
  function SelectorFor(option: string): (selector: string)
    ensures selector in SELECTORS
    ensures option !in {"1", "2", "3", "4", "5"} ==> selector == "all"
  {
    var options := map["1" := "all", "2" := "gradient", "3" := "lagrange", "4" := "partial", "5" := "unconstrained"];
    if option in options then options[option] else "all"
  }

  /** The menu line that offers each selector. */
  function MenuDigit(selector: string): string
  {
    if selector == "gradient" then "2"
    else if selector == "lagrange" then "3"
    else if selector == "partial" then "4"
    else if selector == "unconstrained" then "5"
    else "1"
  }

  /** The menu offers every selector, each under exactly one digit. */
  lemma MenuRoundTrip(selector: string, option: string)
    ensures selector in SELECTORS ==> SelectorFor(MenuDigit(selector)) == selector
    ensures option in {"1", "2", "3", "4", "5"} ==> MenuDigit(SelectorFor(option)) == option
  {
  }

  /** `1e-6`: residuals of at most this size count as satisfied. */
  const THRESHOLD: real := 0.000001

  function Abs(r: real): real
  {
    if r < 0.0 then -r else r
  }

  /** A key of the point dictionary: a plain name, or a sympy `Symbol` printed as `name`. */
  datatype Key = Name(name: string) | Sym(symbol: string)

  /**
   * The `point` argument: a dictionary as its `items()` in iteration order,
   * or the text `'N/A'` a failed gradient-descent record carries.
   */
  datatype PointArg<V> = Entries(items: seq<(Key, V)>) | NotAvailable

  const TYPE_ERROR_TEXT := "replace() argument 1 must be str, not Symbol"
  const NO_ITEMS_TEXT := "'str' object has no attribute 'items'"

  /**
   * The inner loop of lines 98-99: replace every occurrence of each key's
   * name by the text of its value, in iteration order. `str.replace` with a
   * `Symbol` key raises TypeError.
   */
  function Substitute<V>(expr: string, items: seq<(Key, V)>, show: V -> string): (r: Result<string, Exception>)
    ensures r.Failure? <==> exists i :: 0 <= i < |items| && items[i].0.Sym?
    ensures r.Failure? ==> r.error == Exception(TypeError, TYPE_ERROR_TEXT)
    decreases |items|
  {
    if items == [] then Success(expr)
    else
      match items[0].0
      case Sym(_) => Failure(Exception(TypeError, TYPE_ERROR_TEXT))
      case Name(n) =>
        var r := Substitute(Replace(expr, n, show(items[0].1)), items[1..], show);
        assert forall i :: 1 <= i < |items| ==> items[i] == items[1..][i - 1];
        r
  }

  /** Substituting a list of entries is substituting its first part, then the rest. */
  lemma {:induction false} SubstituteInOrder<V>(expr: string, first: seq<(Key, V)>, rest: seq<(Key, V)>, show: V -> string)
    requires forall i :: 0 <= i < |first| ==> first[i].0.Name?
    ensures Substitute(expr, first, show).Success?
    ensures Substitute(expr, first + rest, show) == Substitute(Substitute(expr, first, show).value, rest, show)
    decreases |first|
  {
    if first == [] {
      assert first + rest == rest;
    } else {
      assert (first + rest)[0] == first[0];
      assert (first + rest)[1..] == first[1..] + rest;
      SubstituteInOrder(Replace(expr, first[0].0.name, show(first[0].1)), first[1..], rest, show);
    }
  }

  /**
   * Substitution is textual: a one-letter variable is replaced wherever its
   * letter stands, inside longer identifiers too (`Strings.ReplaceOccurrence`
   * for one occurrence); with `x := 2`, `x+xy` becomes `2+2y`.
   */
  lemma SubstitutesInsideIdentifiers()
    ensures Replace("x+xy", "x", "2") == "2+2y"
  {
    assert "x+xy" == "x+" + "xy";
    ReplaceCharConcat("x+", "xy", 'x', "2");
    ReplaceOccurrence([], "+", 'x', "2");
    ReplaceOccurrence([], "y", 'x', "2");
    assert [] + ['x'] + "+" == "x+" && [] + ['x'] + "y" == "xy";
  }

  /** The residual text of one constraint, evaluated: lines 97-100. */
  function Residual<V>(point: PointArg<V>, constraint: string, show: V -> string,
                       eval: string -> Result<real, Exception>): (r: Result<real, Exception>)
    ensures point.NotAvailable? ==> r == Failure(Exception(AttributeError, NO_ITEMS_TEXT))
    ensures point.Entries? && (exists i :: 0 <= i < |point.items| && point.items[i].0.Sym?) ==>
              r == Failure(Exception(TypeError, TYPE_ERROR_TEXT))
    ensures r.Success? ==> point.Entries? && forall i :: 0 <= i < |point.items| ==> point.items[i].0.Name?
  {
    match point
    case NotAvailable => Failure(Exception(AttributeError, NO_ITEMS_TEXT))
    case Entries(items) =>
      match Substitute(Replace(constraint, "==", "-"), items, show)
      case Failure(e) => Failure(e)
      case Success(expr) => eval(expr)
  }

  /** What `_check_constraints` decides. */
  datatype Verdict = NotApplicable | Satisfied | Violated(residual: real) | EvaluationError(message: string)

  /** The outer loop of lines 95-103: stop at the first residual above the threshold. */
  function CheckAll<V>(point: PointArg<V>, constraints: seq<string>, show: V -> string,
                       eval: string -> Result<real, Exception>): (v: Verdict)
    ensures !v.NotApplicable?
    ensures v.Violated? ==> Abs(v.residual) > THRESHOLD
    decreases |constraints|
  {
    if constraints == [] then Satisfied
    else
      match Residual(point, constraints[0], show, eval)
      case Failure(e) => EvaluationError(e.text)
      case Success(r) => if Abs(r) > THRESHOLD then Violated(r) else CheckAll(point, constraints[1..], show, eval)
  }

  predicate Empty<V>(point: PointArg<V>)
  {
    point.Entries? && point.items == []
  }

  function CheckConstraintsVerdict<V>(point: PointArg<V>, constraints: seq<string>, show: V -> string,
                                      eval: string -> Result<real, Exception>): (v: Verdict)
    ensures v.NotApplicable? <==> Empty(point) || constraints == []
    ensures v.Violated? ==> Abs(v.residual) > THRESHOLD
  {
    if Empty(point) || constraints == [] then NotApplicable else CheckAll(point, constraints, show, eval)
  }

  /** The string returned; `showReal` stands for `str` of the residual. */
  function VerdictText(v: Verdict, showReal: real -> string): (text: string)
    ensures text == "N/A" <==> v.NotApplicable?
    ensures text == "sí" <==> v.Satisfied?
  {
    match v
    case NotApplicable => "N/A"
    case Satisfied => "sí"
    case Violated(r) => "no (error: " + showReal(r) + ")"
    case EvaluationError(m) => "Error al evaluar restricciones: " + m
  }

  /** Constraint `c` evaluates and its residual is at most the threshold in size. */
  predicate Passes<V>(point: PointArg<V>, c: string, show: V -> string, eval: string -> Result<real, Exception>)
  {
    Residual(point, c, show, eval).Success? && Abs(Residual(point, c, show, eval).value) <= THRESHOLD
  }

  /** "sí" exactly when every constraint passes. */
  lemma {:induction false} CheckAllSatisfied<V>(point: PointArg<V>, constraints: seq<string>, show: V -> string,
                                                eval: string -> Result<real, Exception>)
    ensures !CheckAll(point, constraints, show, eval).NotApplicable?
    ensures CheckAll(point, constraints, show, eval) == Satisfied <==>
            forall i :: 0 <= i < |constraints| ==> Passes(point, constraints[i], show, eval)
    decreases |constraints|
  {
    if constraints != [] {
      var rest := constraints[1..];
      CheckAllSatisfied(point, rest, show, eval);
      assert forall i :: 1 <= i < |constraints| ==> constraints[i] == rest[i - 1];
    }
  }

  /** A violation reports the residual of the first constraint that does not pass; earlier ones all pass. */
  lemma {:induction false} CheckAllViolated<V>(point: PointArg<V>, constraints: seq<string>, show: V -> string,
                                               eval: string -> Result<real, Exception>)
    requires CheckAll(point, constraints, show, eval).Violated?
    ensures var r := CheckAll(point, constraints, show, eval).residual;
            exists i :: (0 <= i < |constraints| && Residual(point, constraints[i], show, eval) == Success(r)
                         && Abs(r) > THRESHOLD
                         && forall j :: 0 <= j < i ==> Passes(point, constraints[j], show, eval))
    decreases |constraints|
  {
    var r := CheckAll(point, constraints, show, eval).residual;
    if Passes(point, constraints[0], show, eval) {
      var rest := constraints[1..];
      CheckAllViolated(point, rest, show, eval);
      var i :| 0 <= i < |rest| && Residual(point, rest[i], show, eval) == Success(r) && Abs(r) > THRESHOLD
               && forall j :: 0 <= j < i ==> Passes(point, rest[j], show, eval);
      assert constraints[i + 1] == rest[i];
      assert forall j :: 1 <= j < i + 1 ==> constraints[j] == rest[j - 1];
    } else {
      assert Residual(point, constraints[0], show, eval) == Success(r);
    }
  }

  /** An evaluation error reports the exception of the first constraint that does not pass. */
  lemma {:induction false} CheckAllError<V>(point: PointArg<V>, constraints: seq<string>, show: V -> string,
                                            eval: string -> Result<real, Exception>)
    requires CheckAll(point, constraints, show, eval).EvaluationError?
    ensures var m := CheckAll(point, constraints, show, eval).message;
            exists i :: (0 <= i < |constraints| && Residual(point, constraints[i], show, eval).Failure?
                         && Residual(point, constraints[i], show, eval).error.text == m
                         && forall j :: 0 <= j < i ==> Passes(point, constraints[j], show, eval))
    decreases |constraints|
  {
    var m := CheckAll(point, constraints, show, eval).message;
    if Passes(point, constraints[0], show, eval) {
      var rest := constraints[1..];
      CheckAllError(point, rest, show, eval);
      var i :| 0 <= i < |rest| && Residual(point, rest[i], show, eval).Failure?
               && Residual(point, rest[i], show, eval).error.text == m
               && forall j :: 0 <= j < i ==> Passes(point, rest[j], show, eval);
      assert constraints[i + 1] == rest[i];
      assert forall j :: 1 <= j < i + 1 ==> constraints[j] == rest[j - 1];
    }
  }

  /**
   * The verdict: "N/A" exactly for an empty point or no constraints; "sí"
   * exactly when every residual is at most 1e-6 in size.
   */
  lemma VerdictCases<V>(point: PointArg<V>, constraints: seq<string>, show: V -> string,
                        eval: string -> Result<real, Exception>)
    ensures var v := CheckConstraintsVerdict(point, constraints, show, eval);
            (v == NotApplicable <==> Empty(point) || constraints == [])
    ensures var v := CheckConstraintsVerdict(point, constraints, show, eval);
            (v == Satisfied <==>
               (!Empty(point) && constraints != []
                && forall i :: 0 <= i < |constraints| ==> Passes(point, constraints[i], show, eval)))
  {
    CheckAllSatisfied(point, constraints, show, eval);
  }

  /**
   * A point keyed by sympy symbols, or the text 'N/A', never reaches `eval`:
   * with any constraint the verdict is the error about `replace` or `items`.
   */
  lemma NonStringKeysFail<V>(point: PointArg<V>, constraints: seq<string>, show: V -> string,
                             eval: string -> Result<real, Exception>)
    requires constraints != []
    ensures point.NotAvailable? ==>
              CheckConstraintsVerdict(point, constraints, show, eval) == EvaluationError(NO_ITEMS_TEXT)
    ensures point.Entries? && (exists i :: 0 <= i < |point.items| && point.items[i].0.Sym?) ==>
              CheckConstraintsVerdict(point, constraints, show, eval) == EvaluationError(TYPE_ERROR_TEXT)
  {
  }

  /** `str(var)`: a sympy symbol prints as its name. */
  function KeyText(k: Key): string
  {
    match k
    case Name(n) => n
    case Sym(n) => n
  }

  /** The entries with every key replaced by its text. */
  function AsNames<V>(items: seq<(Key, V)>): (named: seq<(Key, V)>)
    ensures |named| == |items|
    ensures forall i :: 0 <= i < |items| ==> named[i] == (Name(KeyText(items[i].0)), items[i].1)
  {
    seq(|items|, i requires 0 <= i < |items| => (Name(KeyText(items[i].0)), items[i].1))
  }

  /**
   * The constraint check with each key converted to text before `str.replace`, as the
   * substitution evidently intends for points keyed by sympy symbols.
   */
  function CheckConstraintsByName<V>(point: PointArg<V>, constraints: seq<string>, show: V -> string,
                                     eval: string -> Result<real, Exception>): (v: Verdict)
    ensures v.NotApplicable? <==> Empty(point) || constraints == []
    ensures point.NotAvailable? && constraints != [] ==> v == EvaluationError(NO_ITEMS_TEXT)
  {
    match point
    case NotAvailable => CheckConstraintsVerdict(point, constraints, show, eval)
    case Entries(items) => CheckConstraintsVerdict(Entries(AsNames(items)), constraints, show, eval)
  }

  /**
   * Converting keys to text, substitution never raises, so a symbol-keyed
   * point is judged by its residuals: "sí" exactly when every residual is
   * small; and on string-keyed points nothing changes.
   */
  lemma ByNameJudgesResiduals<V>(items: seq<(Key, V)>, constraints: seq<string>, show: V -> string,
                                 eval: string -> Result<real, Exception>)
    ensures forall c :: Substitute(Replace(c, "==", "-"), AsNames(items), show).Success?
    ensures var v := CheckConstraintsByName(Entries(items), constraints, show, eval);
            (v == Satisfied <==>
               (items != [] && constraints != []
                && forall i :: 0 <= i < |constraints| ==> Passes(Entries(AsNames(items)), constraints[i], show, eval)))
    ensures (forall i :: 0 <= i < |items| ==> items[i].0.Name?) ==>
            CheckConstraintsByName(Entries(items), constraints, show, eval)
            == CheckConstraintsVerdict(Entries(items), constraints, show, eval)
  {
    VerdictCases(Entries(AsNames(items)), constraints, show, eval);
    if forall i :: 0 <= i < |items| ==> items[i].0.Name? {
      assert AsNames(items) == items;
    }
  }

  /** A first character other than `=` is copied by the rewrite of `==`. */
  lemma RewriteCopiesHead(c: char, u: string)
    requires c != '='
    ensures Replace([c] + u, "==", "-") == [c] + Replace(u, "==", "-")
  {
    var s := [c] + u;
    assert s[1..] == u;
    if |u| > 0 {
      assert s[..2][0] == c;
    }
  }

  /** Splitting the head character off a concatenation. */
  lemma SplitHead(l: string, t: string, tail: string)
    requires l != []
    ensures l + t == [l[0]] + (l[1..] + t)
    ensures [l[0]] + (l[1..] + tail) == l + tail
  {
    assert l == [l[0]] + l[1..];
  }

  /** A text without `=` is copied through the rewrite of `==` unchanged, and so is what follows it. */
  lemma {:induction false} RewriteSkipsPlainText(l: string, t: string)
    requires '=' !in l
    ensures Replace(l + t, "==", "-") == l + Replace(t, "==", "-")
    decreases |l|
  {
    if l != [] {
      assert l[0] in l;
      var rest := l[1..];
      RewriteSkipsPlainText(rest, t);
      RewriteCopiesHead(l[0], rest + t);
      SplitHead(l, t, Replace(t, "==", "-"));
    } else {
      assert l + t == t;
    }
  }

  /**
   * Every `==` becomes `-`: a constraint `lhs == rhs` whose sides contain no
   * `=` is checked as the residual text `lhs - rhs`.
   */
  lemma ResidualOfEquation(lhs: string, rhs: string)
    requires '=' !in lhs && '=' !in rhs
    ensures Replace(lhs + "==" + rhs, "==", "-") == lhs + "-" + rhs
  {
    assert lhs + "==" + rhs == lhs + ("==" + rhs);
    RewriteSkipsPlainText(lhs, "==" + rhs);
    assert ("==" + rhs)[2..] == rhs;
    assert ("==" + rhs)[..2] == "==";
    RewriteSkipsPlainText(rhs, "");
    assert rhs + "" == rhs;
    assert Replace("", "==", "-") == "";
  }

  /** No `==` survives the rewrite; the rewrite starts with `s[0]`, unless `s` starts with `==`. */
  lemma {:induction false} RewriteRemovesDoubleEquals(s: string)
    ensures !Contains(Replace(s, "==", "-"), "==")
    ensures |Replace(s, "==", "-")| == 0 <==> |s| == 0
    ensures |s| > 0 && !StartsWith(s, "==") ==> Replace(s, "==", "-")[0] == s[0]
    decreases |s|
  {
    var r := Replace(s, "==", "-");
    if |s| < 2 {
      assert r == s;
      if |s| == 1 {
        assert !StartsWith(r, "==");
        assert r[1..] == [];
        assert !Contains(r[1..], "==");
      }
    } else if s[..2] == "==" {
      RewriteRemovesDoubleEquals(s[2..]);
      var tail := Replace(s[2..], "==", "-");
      assert r == "-" + tail;
      assert r[1..] == tail;
      assert !StartsWith(r, "==") by {
        if |r| >= 2 {
          assert r[..2][0] == '-';
        }
      }
    } else {
      RewriteRemovesDoubleEquals(s[1..]);
      var tail := Replace(s[1..], "==", "-");
      assert r == [s[0]] + tail;
      assert r[1..] == tail;
      assert !StartsWith(r, "==") by {
        if |r| >= 2 && r[0] == '=' {
          assert s[1] != '=' by {
            assert s[..2] == [s[0], s[1]];
          }
          assert !StartsWith(s[1..], "==");
          assert tail[0] == s[1];
          assert r[..2][1] == r[1];
        }
      }
    }
  }

  /**
   * `_check_constraints(point, constraints)`: the nested loops with their
   * early returns. `eval` and `str` are the parameters `eval`, `show` and
   * `showReal`.
   */
  method CheckConstraints<V>(point: PointArg<V>, constraints: seq<string>, show: V -> string,
                             eval: string -> Result<real, Exception>, showReal: real -> string)
    returns (text: string)
    ensures text == VerdictText(CheckConstraintsVerdict(point, constraints, show, eval), showReal)
  {
    if Empty(point) || constraints == [] {
      return "N/A";
    }
    for c := 0 to |constraints|
      invariant CheckAll(point, constraints, show, eval) == CheckAll(point, constraints[c..], show, eval)
    {
      assert constraints[c..][1..] == constraints[c + 1..];
      var expr := Replace(constraints[c], "==", "-");
      if point.NotAvailable? {
        return "Error al evaluar restricciones: " + NO_ITEMS_TEXT;
      }
      var items := point.items;
      for k := 0 to |items|
        invariant Substitute(Replace(constraints[c], "==", "-"), items, show) == Substitute(expr, items[k..], show)
      {
        assert items[k..][1..] == items[k + 1..];
        match items[k].0 {
          case Sym(_) => return "Error al evaluar restricciones: " + TYPE_ERROR_TEXT;
          case Name(n) => expr := Replace(expr, n, show(items[k].1));
        }
      }
      assert items[|items|..] == [];
      match eval(expr) {
        case Failure(e) => return "Error al evaluar restricciones: " + e.text;
        case Success(result) =>
          if Abs(result) > THRESHOLD {
            return "no (error: " + showReal(result) + ")";
          }
      }
    }
    assert constraints[|constraints|..] == [];
    text := "sí";
  }
}

=== FILE: function_parser.dfy ===
/**
 * `FunctionParser`: rewriting of common notation before sympify, extraction
 * of identifiers from the text of a function, and the equality-constraint
 * check. Character classes are the ASCII ones.
 */
module FunctionParser {
  import opened Wrappers
  import opened Strings
  import opened Sympy

  predicate IsDigit(c: char) { '0' <= c <= '9' }

  predicate IsLetter(c: char) { 'a' <= c <= 'z' || 'A' <= c <= 'Z' }

  /** `\w` */
  predicate IsWordChar(c: char) { IsLetter(c) || IsDigit(c) || c == '_' }

  /** `[a-zA-Z_]` */
  predicate IsIdentStart(c: char) { IsLetter(c) || c == '_' }

  // ---------------------------------------------------------------- `^` to `**`

  /** `func_str.replace('^', '**')` */
  function ExpandCarets(s: string): (r: string)
    ensures |s| <= |r|
  {
    Replace(s, "^", "**")
  }

  /** The rewrite works character by character: it distributes over concatenation. */
  lemma {:induction false} ExpandCaretsConcat(a: string, b: string)
    ensures ExpandCarets(a + b) == ExpandCarets(a) + ExpandCarets(b)
  {
    ReplaceCharConcat(a, b, '^', "**");
  }

  /** Every `^` becomes exactly `**` and every other character stays as it is. */
  lemma ExpandCaretsChar(c: char)
    ensures ExpandCarets([c]) == if c == '^' then "**" else [c]
  {
    ReplaceChar(c, '^', "**");
  }

  /** A text without `^` is left unchanged. */
  lemma ExpandCaretsAbsent(s: string)
    ensures '^' !in s ==> ExpandCarets(s) == s
  {
    if '^' !in s {
      ReplaceCharAbsent(s, '^', "**");
    }
  }

  /** No `^` survives the rewrite. */
  lemma {:induction false} ExpandCaretsRemovesAll(s: string)
    ensures '^' !in ExpandCarets(s)
  {
    if s != [] {
      ExpandCaretsRemovesAll(s[1..]);
    }
  }

  // ---------------------------------------------------------------- implicit multiplication

  /** The two `re.sub` rules: digit then letter (`2x`) and letter then digit (`x2`). */
  datatype Rule = DigitLetter | LetterDigit

  predicate Joins(rule: Rule, a: char, b: char)
  {
    match rule
    case DigitLetter => IsDigit(a) && IsLetter(b)
    case LetterDigit => IsLetter(a) && IsDigit(b)
  }

  /**
   * `re.sub(pattern, r'\1*\2', s)` for a two-character pattern: scan left to
   * right; a match is rewritten and scanning resumes after it.
   */
  function Substitute(rule: Rule, s: string): (r: string)
    ensures |s| <= |r|
    ensures |s| > 0 ==> |r| > 0 && r[0] == s[0]
    ensures Separated(rule, s) ==> r == s
    decreases |s|
  {
    if |s| < 2 then s
    else if Joins(rule, s[0], s[1]) then [s[0], '*', s[1]] + Substitute(rule, s[2..])
    else [s[0]] + Substitute(rule, s[1..])
  }

  /** The reference: a `*` between every two adjacent characters the rule joins, and nowhere else. */
  function Spliced(rule: Rule, s: string): string
    decreases |s|
  {
    if |s| < 2 then s
    else [s[0]] + (if Joins(rule, s[0], s[1]) then "*" else "") + Spliced(rule, s[1..])
  }

  /** No two adjacent characters that `rule` joins. */
  predicate Separated(rule: Rule, s: string)
  {
    forall i :: 0 <= i < |s| - 1 ==> !Joins(rule, s[i], s[i + 1])
  }

  lemma SplicedHead(rule: Rule, s: string)
    requires |s| > 0
    ensures |Spliced(rule, s)| > 0 && Spliced(rule, s)[0] == s[0]
  {
  }

  /**
   * Non-overlapping matching misses no pair: after a match the scan resumes
   * at a character the rule cannot join to its successor (a letter never
   * starts a digit-letter pair, a digit never starts a letter-digit pair).
   */
  lemma {:induction false} SubstituteSplicesEveryPair(rule: Rule, s: string)
    ensures Substitute(rule, s) == Spliced(rule, s)
    decreases |s|
  {
    if |s| >= 2 {
      if Joins(rule, s[0], s[1]) {
        SubstituteSplicesEveryPair(rule, s[2..]);
        assert !Joins(rule, s[1], s[0]) by {
          match rule {
            case DigitLetter =>
            case LetterDigit =>
          }
        }
        if |s| > 2 {
          assert !Joins(rule, s[1], s[2]);
          assert s[1..][1..] == s[2..];
        }
      } else {
        SubstituteSplicesEveryPair(rule, s[1..]);
      }
    }
  }

  /** Splicing only adds `*`. */
  lemma {:induction false} SplicedAddsOnlyStars(rule: Rule, s: string, c: char)
    requires c in Spliced(rule, s)
    ensures c in s || c == '*'
    decreases |s|
  {
    if |s| >= 2 {
      var rest := Spliced(rule, s[1..]);
      if c in rest {
        SplicedAddsOnlyStars(rule, s[1..], c);
      }
    }
  }

  /**
   * Splicing by `rule` leaves no pair `rule` joins, and creates no pair of any
   * rule: the characters around an inserted `*` are never joined.
   */
  lemma {:induction false} SplicedSeparates(rule: Rule, other: Rule, s: string)
    requires other == rule || Separated(other, s)
    ensures Separated(other, Spliced(rule, s))
    decreases |s|
  {
    if |s| >= 2 {
      SplicedSeparates(rule, other, s[1..]);
      SplicedHead(rule, s[1..]);
      var rest := Spliced(rule, s[1..]);
      var mid: string := if Joins(rule, s[0], s[1]) then "*" else "";
      var t := [s[0]] + mid + rest;
      forall i | 0 <= i < |t| - 1 ensures !Joins(other, t[i], t[i + 1]) {
        if i >= 1 + |mid| {
          assert t[i] == rest[i - 1 - |mid|] && t[i + 1] == rest[i - |mid|];
        } else if mid == "" {
          assert t[i + 1] == s[1];
          if other != rule {
            assert !Joins(other, s[0], s[1]);
          }
        }
      }
    }
  }

  /** A text with no pair to join is left alone. */
  lemma {:induction false} SplicedIdentity(rule: Rule, s: string)
    requires Separated(rule, s)
    ensures Spliced(rule, s) == s
    decreases |s|
  {
    if |s| >= 2 {
      assert !Joins(rule, s[0], s[1]);
      SplicedIdentity(rule, s[1..]);
      assert s == [s[0]] + s[1..];
    }
  }

  /** Lines 12-14: the text handed to sympify. */
  function Normalize(s: string): (r: string)
    ensures |s| <= |r|
    ensures '^' !in s && Separated(DigitLetter, s) && Separated(LetterDigit, s) ==> r == s
  {
    ExpandCaretsAbsent(s);
    Substitute(LetterDigit, Substitute(DigitLetter, ExpandCarets(s)))
  }

  /** After normalising, no `^` is left and no digit touches a letter in either order. */
  lemma NormalizeSeparates(s: string)
    ensures '^' !in Normalize(s)
    ensures Separated(DigitLetter, Normalize(s)) && Separated(LetterDigit, Normalize(s))
  {
    var t0 := ExpandCarets(s);
    var t1 := Substitute(DigitLetter, t0);
    var t2 := Substitute(LetterDigit, t1);
    SubstituteSplicesEveryPair(DigitLetter, t0);
    SubstituteSplicesEveryPair(LetterDigit, t1);
    ExpandCaretsRemovesAll(s);
    if '^' in t1 {
      SplicedAddsOnlyStars(DigitLetter, t0, '^');
    }
    if '^' in t2 {
      SplicedAddsOnlyStars(LetterDigit, t1, '^');
    }
    SplicedSeparates(DigitLetter, DigitLetter, t0);
    SplicedSeparates(LetterDigit, DigitLetter, t1);
    SplicedSeparates(LetterDigit, LetterDigit, t1);
  }

  /** Normalising twice is normalising once. */
  lemma NormalizeIdempotent(s: string)
    ensures Normalize(Normalize(s)) == Normalize(s)
  {
    var t := Normalize(s);
    NormalizeSeparates(s);
    if Contains(t, "^") {
      ContainsChar(t, '^');
    }
    ReplaceAbsent(t, "^", "**");
    SubstituteSplicesEveryPair(DigitLetter, t);
    SplicedIdentity(DigitLetter, t);
    SubstituteSplicesEveryPair(LetterDigit, t);
    SplicedIdentity(LetterDigit, t);
  }

  /**
   * `parse_function`: sympify the normalised text; whatever sympify raises
   * comes back as a `ValueError` carrying its text.
   */
  function ParseFunction(sympify: string -> Result<Expr, Exception>, s: string): (r: Result<Expr, Exception>)
    ensures r.Success? <==> sympify(Normalize(s)).Success?
    ensures r.Success? ==> r == sympify(Normalize(s))
    ensures r.Failure? ==> r.error.kind == ValueError
                           && r.error.text == "Error parseando función: " + sympify(Normalize(s)).error.text
  {
    match sympify(Normalize(s))
    case Success(e) => Success(e)
    case Failure(e) => Failure(Exception(ValueError, "Error parseando función: " + e.text))
  }

  // ---------------------------------------------------------------- identifiers

  const MATH_FUNCTIONS: set<string> := {"sin", "cos", "tan", "exp", "log", "sqrt", "abs"}

  /** The end of the run of word characters that starts at `p`. */
  function RunEnd(s: string, p: nat): (q: nat)
    requires p <= |s|
    ensures p <= q <= |s|
    ensures forall k :: p <= k < q ==> IsWordChar(s[k])
    ensures q == |s| || !IsWordChar(s[q])
    decreases |s| - p
  {
    if p < |s| && IsWordChar(s[p]) then RunEnd(s, p + 1) else p
  }

  /** `\b[a-zA-Z_]`: an identifier character that no word character precedes. */
  predicate IsTokenStart(s: string, i: int)
  {
    0 <= i < |s| && IsIdentStart(s[i]) && (i == 0 || !IsWordChar(s[i - 1]))
  }

  /** `[a-zA-Z_0-9]*\b` from a token start: the whole run of word characters. */
  function Token(s: string, i: nat): string
    requires i < |s|
  {
    s[i..RunEnd(s, i)]
  }

  /**
   * `re.findall(r'\b[a-zA-Z_][a-zA-Z_0-9]*\b', s[p..])`, scanning from a
   * position that is not inside a run of word characters: a run starting
   * with a digit yields nothing, since no position inside it is a `\b`.
   */
  function FindIdentifiers(s: string, p: nat): (ws: seq<string>)
    requires p <= |s|
    ensures forall w :: w in ws ==> Identifier(w)
    decreases |s| - p
  {
    if p == |s| then []
    else if !IsWordChar(s[p]) then FindIdentifiers(s, p + 1)
    else
      var q := RunEnd(s, p);
      (if IsIdentStart(s[p]) then [s[p..q]] else []) + FindIdentifiers(s, q)
  }

  /** A word `\b[a-zA-Z_][a-zA-Z_0-9]*\b` can match: an identifier character, then word characters. */
  predicate Identifier(w: string)
  {
    |w| > 0 && IsIdentStart(w[0]) && forall k :: 0 <= k < |w| ==> IsWordChar(w[k])
  }

  /** Not inside a run of word characters. */
  predicate AtBoundary(s: string, p: nat)
  {
    p == 0 || p >= |s| || !IsWordChar(s[p - 1]) || !IsWordChar(s[p])
  }

  /** The scan finds exactly the tokens that start at or after `p`. */
  lemma {:induction false} FindIdentifiersTokens(s: string, p: nat)
    requires p <= |s| && AtBoundary(s, p)
    ensures forall w :: w in FindIdentifiers(s, p) <==>
                        exists i :: p <= i < |s| && IsTokenStart(s, i) && Token(s, i) == w
    decreases |s| - p
  {
    if p < |s| {
      if !IsWordChar(s[p]) {
        FindIdentifiersTokens(s, p + 1);
        assert !IsTokenStart(s, p);
      } else {
        var q := RunEnd(s, p);
        FindIdentifiersTokens(s, q);
        assert forall i :: p < i < q ==> !IsTokenStart(s, i);
        forall w ensures w in FindIdentifiers(s, p) <==>
                         exists i :: p <= i < |s| && IsTokenStart(s, i) && Token(s, i) == w
        {
          if w in FindIdentifiers(s, p) {
            if w !in FindIdentifiers(s, q) {
              assert IsTokenStart(s, p) && Token(s, p) == w;
            }
          }
          if i :| p <= i < |s| && IsTokenStart(s, i) && Token(s, i) == w {
            if i == p {
              assert w in (if IsIdentStart(s[p]) then [s[p..q]] else []);
            } else {
              assert q <= i;
            }
          }
        }
      }
    }
  }

  /** `[v for v in variables if v not in math_funcs]` */
  function DropMathFunctions(ws: seq<string>): (r: seq<string>)
    ensures forall w :: w in r <==> w in ws && w !in MATH_FUNCTIONS
  {
    if ws == [] then []
    else (if ws[0] in MATH_FUNCTIONS then [] else [ws[0]]) + DropMathFunctions(ws[1..])
  }

  /**
   * `extract_variables`: the distinct identifiers of `s` in ascending order,
   * without the seven function names.
   */
  function ExtractVariables(s: string): (r: seq<string>)
    ensures StrictlyAscending(r)
    ensures forall w :: w in r <==> w !in MATH_FUNCTIONS &&
                                    exists i :: IsTokenStart(s, i) && Token(s, i) == w
  {
    FindIdentifiersTokens(s, 0);
    SortUnique(DropMathFunctions(FindIdentifiers(s, 0)))
  }

  lemma {:induction false} ContainsChar(s: string, c: char)
    requires Contains(s, [c])
    ensures c in s
    decreases |s|
  {
    if !StartsWith(s, [c]) {
      ContainsChar(s[1..], c);
    } else {
      assert s[..1] == [c];
      assert s[0] == c;
    }
  }

  lemma {:induction false} ContainsDoubleEquals(s: string)
    ensures Contains(s, "==") <==> exists i :: 0 <= i < |s| - 1 && s[i] == '=' && s[i + 1] == '='
    decreases |s|
  {
    if |s| > 0 {
      ContainsDoubleEquals(s[1..]);
      if StartsWith(s, "==") {
        assert s[..2] == "==";
        assert s[0] == '=' && s[1] == '=';
      }
      if |s| >= 2 && s[0] == '=' && s[1] == '=' {
        assert s[..2] == "==";
      }
      if i :| 0 <= i < |s[1..]| - 1 && s[1..][i] == '=' && s[1..][i + 1] == '=' {
        assert s[i + 1] == '=' && s[i + 2] == '=';
      }
      if i :| 0 <= i < |s| - 1 && s[i] == '=' && s[i + 1] == '=' {
        if i > 0 {
          assert s[1..][i - 1] == '=' && s[1..][i] == '=';
        } else {
          assert s[..2] == "==";
        }
      }
    }
  }

  const EQUALITY_REQUIRED := "Las restricciones deben usar '==' para igualdad"

  /** `validate_constraint`: the text itself when it contains `==`, a `ValueError` otherwise. */
  function ValidateConstraint(s: string): (r: Result<string, Exception>)
    ensures r.Success? <==> exists i :: 0 <= i < |s| - 1 && s[i] == '=' && s[i + 1] == '='
    ensures r.Success? ==> r.value == s
    ensures r.Failure? ==> r.error == Exception(ValueError, EQUALITY_REQUIRED)
  {
    ContainsDoubleEquals(s);
    if !Contains(s, "==") then Failure(Exception(ValueError, EQUALITY_REQUIRED)) else Success(s)
  }
}

=== FILE: gradient_descent.dfy ===
/**
 * `GradientDescent`: fixed-step gradient descent from a start vector, with an
 * abstract convergence test on the step, and the `iterations` field it keeps.
 */
module GradientDescent {
  import opened Wrappers
  import opened Strings
  import opened Sympy
  import opened BaseOptimizer

  const ERROR_PREFIX := "Error en gradiente descendente: "
  const METHOD_NAME := "Gradient Descent"
  const DEFAULT_LEARNING_RATE: real := 0.01
  const DEFAULT_MAX_ITERATIONS := 1000
  const DEFAULT_TOLERANCE: real := 0.000001

  /** The parser method `BaseOptimizer` defines, and the name `solve` looks up instead. */
  const PARSER_DEFINED := "_parser_function"
  const PARSER_AS_WRITTEN := "_parse_function"

  /** A point as a dictionary from variable name to coordinate. */
  type Point = map<string, real>

  /**
   * The numeric side: `lambdify` turns the gradient expressions into a
   * function of the coordinates (which may raise when called), `converged`
   * stands for `norm(x_new - x_current) < tolerance`, and `evaluate` for
   * `float(obj_expr.subs(point))`.
   */
  datatype Numeric = Numeric(
    lambdify: (seq<string>, seq<Expr>) -> Result<seq<real> -> Result<seq<real>, Exception>, Exception>,
    converged: (seq<real>, seq<real>, real) -> bool,
    evaluate: (Expr, Point) -> Result<real, Exception>)

  /** The keyword arguments of `solve` that the descent uses. */
  datatype Settings = Settings(initialPoint: Point, learningRate: real, maxIterations: int, tolerance: real)

  /** The two names `solve` can look its parser up under: as written, and as `BaseOptimizer` spells it. */
  predicate ParserName(name: string)
  {
    name == PARSER_DEFINED || name == PARSER_AS_WRITTEN
  }

  /**
   * Attribute lookup of the parser on a `GradientDescent` object: of the two
   * names, only `_parser_function` resolves, to sympify; `_parse_function`
   * raises AttributeError with Python's message.
   */
  function LookupParser(engine: Engine, name: string): (r: Result<string -> Result<Expr, Exception>, Exception>)
    requires ParserName(name)
    ensures r.Success? <==> name == PARSER_DEFINED
    ensures r.Success? ==> r.value == engine.sympify
    ensures r.Failure? ==> r.error == Exception(AttributeError, "'GradientDescent' object has no attribute '" + name + "'")
  {
    if name == PARSER_DEFINED then Success(engine.sympify)
    else Failure(Exception(AttributeError, "'GradientDescent' object has no attribute '" + name + "'"))
  }

  /** The name-sorted coordinates the descent starts from (lines 34-37). */
  function StartVector(vars: seq<string>, initialPoint: Point): (x: seq<real>)
    ensures |x| == |vars|
    ensures forall i :: 0 <= i < |vars| ==> x[i] == if vars[i] in initialPoint then initialPoint[vars[i]] else 0.0
    ensures initialPoint == map[] ==> forall i :: 0 <= i < |vars| ==> x[i] == 0.0
  {
    var given := if initialPoint == map[] then map v | v in vars :: 0.0 else initialPoint;
    seq(|vars|, i requires 0 <= i < |vars| => if vars[i] in given then given[vars[i]] else 0.0)
  }

  /** `x_current - learning_rate * grad_val`; arrays of different lengths do not combine. */
  function Step(x: seq<real>, lr: real, g: seq<real>): (r: Result<seq<real>, Exception>)
    ensures r.Success? <==> |g| == |x|
    ensures r.Success? ==> |r.value| == |x| && forall i :: 0 <= i < |x| ==> r.value[i] == x[i] - lr * g[i]
  {
    if |g| != |x|
    then Failure(Exception(ValueError, "operands could not be broadcast together with shapes ("
                                       + Decimal(|x|) + ",) (" + Decimal(|g|) + ",) "))
    else Success(seq(|x|, i requires 0 <= i < |x| => x[i] - lr * g[i]))
  }

  /** One proposed update: evaluate the gradient, then step against it. */
  function NextIterate(grad: seq<real> -> Result<seq<real>, Exception>, lr: real, x: seq<real>): (r: Result<seq<real>, Exception>)
    ensures r.Success? ==> |r.value| == |x|
  {
    match grad(x)
    case Failure(e) => Failure(e)
    case Success(g) => Step(x, lr, g)
  }

  /** The point after `n` applied updates from `x0`. */
  function Iterate(grad: seq<real> -> Result<seq<real>, Exception>, lr: real, x0: seq<real>, n: nat): (r: Result<seq<real>, Exception>)
    ensures r.Success? ==> |r.value| == |x0|
  {
    if n == 0 then Success(x0)
    else
      match Iterate(grad, lr, x0, n - 1)
      case Failure(e) => Failure(e)
      case Success(x) => NextIterate(grad, lr, x)
  }

  /** How the loop ends: with a point after `updates` updates, or with an exception. */
  datatype Run = Finished(point: seq<real>, updates: nat) | Crashed(error: Exception, updates: nat)

  /**
   * The loop from index `k` with current point `x`: propose an update, break
   * without applying it when the step is small, otherwise apply it and go on.
   */
  function Descent(grad: seq<real> -> Result<seq<real>, Exception>, conv: (seq<real>, seq<real>, real) -> bool,
                   lr: real, tol: real, x: seq<real>, k: nat, maxIterations: int): (r: Run)
    ensures r.Finished? ==> |r.point| == |x|
    decreases maxIterations - k
  {
    if k >= maxIterations then Finished(x, k)
    else
      match NextIterate(grad, lr, x)
      case Failure(e) => Crashed(e, k)
      case Success(xNew) =>
        if conv(xNew, x, tol) then Finished(x, k)
        else Descent(grad, conv, lr, tol, xNew, k + 1, maxIterations)
  }

  /** The update proposed at the point after `j` updates succeeds and is not a small step. */
  predicate Rejected(grad: seq<real> -> Result<seq<real>, Exception>, conv: (seq<real>, seq<real>, real) -> bool,
                     lr: real, tol: real, x0: seq<real>, j: nat)
  {
    && Iterate(grad, lr, x0, j).Success?
    && NextIterate(grad, lr, Iterate(grad, lr, x0, j).value).Success?
    && !conv(NextIterate(grad, lr, Iterate(grad, lr, x0, j).value).value, Iterate(grad, lr, x0, j).value, tol)
  }

  /**
   * The loop from index `k`, where `x` is the point after `k` updates:
   * every update it applies was not a small step; it stops only at the bound,
   * at a small step (which is then not applied) or at an exception.
   */
  lemma {:induction false} DescentFrom(grad: seq<real> -> Result<seq<real>, Exception>,
                                       conv: (seq<real>, seq<real>, real) -> bool,
                                       lr: real, tol: real, x0: seq<real>, x: seq<real>, k: nat, maxIterations: int)
    requires Iterate(grad, lr, x0, k) == Success(x)
    requires k == 0 || k <= maxIterations
    ensures var r := Descent(grad, conv, lr, tol, x, k, maxIterations);
            && k <= r.updates
            && (r.updates == 0 || r.updates <= maxIterations)
            && Iterate(grad, lr, x0, r.updates).Success?
            && (r.Finished? ==> Iterate(grad, lr, x0, r.updates) == Success(r.point))
            && (r.Finished? && r.updates < maxIterations ==>
                  var p := Iterate(grad, lr, x0, r.updates).value;
                  NextIterate(grad, lr, p).Success? && conv(NextIterate(grad, lr, p).value, p, tol))
            && (r.Crashed? ==>
                  && r.updates < maxIterations
                  && NextIterate(grad, lr, Iterate(grad, lr, x0, r.updates).value) == Failure(r.error))
            && forall j: nat :: k <= j < r.updates ==> Rejected(grad, conv, lr, tol, x0, j)
    decreases maxIterations - k
  {
    if k < maxIterations {
      match NextIterate(grad, lr, x)
      case Failure(e) =>
      case Success(xNew) =>
        assert Iterate(grad, lr, x0, k + 1) == Success(xNew);
        if !conv(xNew, x, tol) {
          DescentFrom(grad, conv, lr, tol, x0, xNew, k + 1, maxIterations);
        }
    }
  }

  /**
   * The returned point is the iterate after `updates` applied updates; a
   * rejected step is never applied; `updates` never exceeds
   * `max(0, max_iterations)`.
   */
  lemma DescentSpec(grad: seq<real> -> Result<seq<real>, Exception>, conv: (seq<real>, seq<real>, real) -> bool,
                    lr: real, tol: real, x0: seq<real>, maxIterations: int)
    ensures var r := Descent(grad, conv, lr, tol, x0, 0, maxIterations);
            && (r.updates == 0 || r.updates <= maxIterations)
            && (r.Finished? ==> Iterate(grad, lr, x0, r.updates) == Success(r.point))
            && (r.Finished? && r.updates < maxIterations ==>
                  NextIterate(grad, lr, r.point).Success? && conv(NextIterate(grad, lr, r.point).value, r.point, tol))
            && (r.Crashed? ==> r.updates < maxIterations)
            && forall j: nat :: j < r.updates ==> Rejected(grad, conv, lr, tol, x0, j)
  {
    DescentFrom(grad, conv, lr, tol, x0, x0, 0, maxIterations);
  }

  /** If no proposed step is small and none raises, the loop runs all `max_iterations` rounds. */
  lemma {:induction false} NeverBreaks(grad: seq<real> -> Result<seq<real>, Exception>,
                                       conv: (seq<real>, seq<real>, real) -> bool,
                                       lr: real, tol: real, x0: seq<real>, x: seq<real>, k: nat, maxIterations: int)
    requires Iterate(grad, lr, x0, k) == Success(x) && k <= maxIterations
    requires forall j: nat :: k <= j < maxIterations ==> Rejected(grad, conv, lr, tol, x0, j)
    ensures Iterate(grad, lr, x0, maxIterations).Success?
    ensures Descent(grad, conv, lr, tol, x, k, maxIterations)
         == Finished(Iterate(grad, lr, x0, maxIterations).value, maxIterations)
    decreases maxIterations - k
  {
    if k < maxIterations {
      assert Rejected(grad, conv, lr, tol, x0, k);
      var xNew := NextIterate(grad, lr, x).value;
      assert Iterate(grad, lr, x0, k + 1) == Success(xNew);
      NeverBreaks(grad, conv, lr, tol, x0, xNew, k + 1, maxIterations);
    }
  }

  /** `{var.name: x_current[i] for i, var in enumerate(variables)}`. */
  function PointOf(vars: seq<string>, x: seq<real>): (point: Point)
    requires |x| == |vars|
    ensures forall v :: v in point <==> v in vars
    decreases |vars|
  {
    if vars == [] then map[]
    else PointOf(vars[..|vars| - 1], x[..|x| - 1])[vars[|vars| - 1] := x[|x| - 1]]
  }

  predicate Distinct(vars: seq<string>)
  {
    forall i, j :: 0 <= i < j < |vars| ==> vars[i] != vars[j]
  }

  /** The sorted variable list names no variable twice. */
  lemma AscendingDistinct(vars: seq<string>)
    requires StrictlyAscending(vars)
    ensures Distinct(vars)
  {
    forall i, j | 0 <= i < j < |vars| ensures vars[i] != vars[j] {
      BelowIrreflexive(vars[i]);
    }
  }

  /** Dropping the last name keeps the rest distinct, and the last name differs from all the others. */
  lemma DistinctInit(vars: seq<string>)
    requires vars != [] && Distinct(vars)
    ensures Distinct(vars[..|vars| - 1])
    ensures forall i :: 0 <= i < |vars| - 1 ==> vars[i] != vars[|vars| - 1]
  {
    var init := vars[..|vars| - 1];
    forall i, j | 0 <= i < j < |init| ensures init[i] != init[j] {
      assert init[i] == vars[i] && init[j] == vars[j];
    }
  }

  /** One coordinate: with distinct names, `vars[i]` maps to `x[i]`. */
  lemma {:induction false} PointOfAt(vars: seq<string>, x: seq<real>, i: nat)
    requires |x| == |vars| && Distinct(vars) && i < |vars|
    ensures PointOf(vars, x)[vars[i]] == x[i]
    decreases |vars|
  {
    var n := |vars| - 1;
    var init, xs := vars[..n], x[..n];
    assert PointOf(vars, x) == PointOf(init, xs)[vars[n] := x[n]];
    if i < n {
      DistinctInit(vars);
      assert vars[i] != vars[n];
      PointOfAt(init, xs, i);
      assert init[i] == vars[i] && xs[i] == x[i];
    }
  }

  /** With distinct names, each variable maps to its own coordinate. */
  lemma PointOfCoordinates(vars: seq<string>, x: seq<real>)
    requires |x| == |vars| && Distinct(vars)
    ensures forall i :: 0 <= i < |vars| ==> PointOf(vars, x)[vars[i]] == x[i]
  {
    forall i | 0 <= i < |vars|
      ensures PointOf(vars, x)[vars[i]] == x[i]
    {
      PointOfAt(vars, x, i);
    }
  }

  /** The error record of lines 73-80. */
  function ErrorRecord(e: Exception, elapsed: real): (o: Outcome<Point>)
    ensures o.FailedRecord? && o.iterations == 0 && o.methodName == METHOD_NAME
    ensures Keys(o) == ["optimal_point", "optimal_value", "iterations", "computation_time", "method", "error"]
  {
    FailedRecord(0, elapsed, METHOD_NAME, ERROR_PREFIX + e.text)
  }

  /**
   * The `iterations` field after a run that applied `updates` updates: each
   * applied update writes its own count, so the last one written is the
   * number of updates; a run with none writes nothing.
   */
  function IterationsAfter(updates: nat, before: int): (k: int)
    ensures updates > 0 ==> k == updates
    ensures updates == 0 ==> k == before
  {
    if updates == 0 then before else updates
  }

  /**
   * `solve` with the parser looked up under `parserName`: the dictionary it
   * returns and the value of the `iterations` field afterwards.
   */
  function DescentResult(engine: Engine, num: Numeric, parserName: string, objective: string,
                         s: Settings, before: int, elapsed: real): (r: (Outcome<Point>, int))
    requires ParserName(parserName)
    ensures !r.0.Failed?
    ensures r.0.FailedRecord? ==> r.0.iterations == 0 && r.0.computationTime == elapsed
    ensures r.0.Solved? ==> && parserName == PARSER_DEFINED && r.0.iterations == r.1
                            && r.0.computationTime == elapsed && r.0.methodName == METHOD_NAME
  {
    match LookupParser(engine, parserName)
    case Failure(e) => (ErrorRecord(e, elapsed), before)
    case Success(parse) =>
      match parse(objective)
      case Failure(e) => (ErrorRecord(e, elapsed), before)
      case Success(obj) =>
        var vars := Variables(engine, obj);
        var x0 := StartVector(vars, s.initialPoint);
        match Gradient(engine, obj, vars)
        case Failure(e) => (ErrorRecord(e, elapsed), before)
        case Success(gradientExpr) =>
          match num.lambdify(vars, gradientExpr)
          case Failure(e) => (ErrorRecord(e, elapsed), before)
          case Success(grad) =>
            var run := Descent(grad, num.converged, s.learningRate, s.tolerance, x0, 0, s.maxIterations);
            var iterations := IterationsAfter(run.updates, before);
            match run
            case Crashed(e, _) => (ErrorRecord(e, elapsed), iterations)
            case Finished(x, _) =>
              var point := PointOf(vars, x);
              match num.evaluate(obj, point)
              case Failure(e) => (ErrorRecord(e, elapsed), iterations)
              case Success(value) => (Solved(point, value, iterations, elapsed, METHOD_NAME), iterations)
  }

  /** As written: the lookup of `_parse_function` fails, so every call returns the error record and changes nothing. */
  lemma AsWrittenNeverSolves(engine: Engine, num: Numeric, objective: string, s: Settings, before: int, elapsed: real)
    ensures DescentResult(engine, num, PARSER_AS_WRITTEN, objective, s, before, elapsed)
         == (FailedRecord(0, elapsed, METHOD_NAME,
                          ERROR_PREFIX + "'GradientDescent' object has no attribute '_parse_function'"), before)
  {
    assert PARSER_AS_WRITTEN[6] != PARSER_DEFINED[6];
    assert "'GradientDescent' object has no attribute '" + PARSER_AS_WRITTEN + "'"
        == "'GradientDescent' object has no attribute '_parse_function'";
  }

  /**
   * With the parser resolved, a success reports every variable of the
   * objective by name, at the iterate the loop stopped on, and the
   * `iterations` it reports is the field's new value.
   */
  lemma ResolvedSolved(engine: Engine, num: Numeric, objective: string, s: Settings, before: int, elapsed: real)
    requires DescentResult(engine, num, PARSER_DEFINED, objective, s, before, elapsed).0.Solved?
    ensures engine.sympify(objective).Success?
    ensures var obj := engine.sympify(objective).value;
            var vars := Variables(engine, obj);
            var (o, iterations) := DescentResult(engine, num, PARSER_DEFINED, objective, s, before, elapsed);
            && o.methodName == METHOD_NAME && o.iterations == iterations
            && (forall v :: v in o.optimalPoint <==> v in engine.freeSymbols(obj))
            && exists grad, n: nat ::
                 && num.lambdify(vars, Gradient(engine, obj, vars).value) == Success(grad)
                 && (n == 0 || n <= s.maxIterations)
                 && iterations == IterationsAfter(n, before)
                 && Iterate(grad, s.learningRate, StartVector(vars, s.initialPoint), n).Success?
                 && |Iterate(grad, s.learningRate, StartVector(vars, s.initialPoint), n).value| == |vars|
                 && (forall i :: 0 <= i < |vars| ==>
                       o.optimalPoint[vars[i]] == Iterate(grad, s.learningRate, StartVector(vars, s.initialPoint), n).value[i])
                 && num.evaluate(obj, o.optimalPoint) == Success(o.optimalValue)
  {
    var obj := engine.sympify(objective).value;
    var vars := Variables(engine, obj);
    var x0 := StartVector(vars, s.initialPoint);
    var grad := num.lambdify(vars, Gradient(engine, obj, vars).value).value;
    var run := Descent(grad, num.converged, s.learningRate, s.tolerance, x0, 0, s.maxIterations);
    DescentSpec(grad, num.converged, s.learningRate, s.tolerance, x0, s.maxIterations);
    AscendingDistinct(vars);
    PointOfCoordinates(vars, run.point);
  }

  /**
   * With the parser resolved the descent can succeed: for `x**2` with a
   * gradient function that returns `2x` and a step test that accepts at once,
   * the call reports the start point 0.0 after zero updates.
   */
  lemma ResolvedCanSolve()
    ensures var engine := Engine(s => Success(Symbol("x")), e => ["x"], (e, v) => Success(Product(Atom(2), Symbol("x"))),
                                 (eqs, vs) => Success([]), (e, sol) => Success(0.0));
            var num := Numeric((vs, es) => Success(x => Success(seq(|x|, i requires 0 <= i < |x| => 2.0 * x[i]))),
                               (xNew, x, tol) => true, (e, p) => Success(0.0));
            DescentResult(engine, num, PARSER_DEFINED, "x**2", Settings(map[], 0.01, 1000, DEFAULT_TOLERANCE), 0, 0.5)
            == (Solved(map["x" := 0.0], 0.0, 0, 0.5, METHOD_NAME), 0)
  {
    var engine := Engine(s => Success(Symbol("x")), e => ["x"], (e, v) => Success(Product(Atom(2), Symbol("x"))),
                         (eqs, vs) => Success([]), (e, sol) => Success(0.0));
    assert Variables(engine, Symbol("x")) == ["x"];
    assert StartVector(["x"], map[]) == [0.0];
    assert PointOf(["x"], [0.0]) == map["x" := 0.0];
  }

  /** On a fresh object the field never exceeds `max(0, max_iterations)`. */
  lemma FreshIterationsBound(engine: Engine, num: Numeric, objective: string, s: Settings, elapsed: real)
    ensures var iterations := DescentResult(engine, num, PARSER_DEFINED, objective, s, 0, elapsed).1;
            0 <= iterations && (iterations == 0 || iterations <= s.maxIterations)
  {
    match engine.sympify(objective)
    case Failure(_) =>
    case Success(obj) =>
      var vars := Variables(engine, obj);
      match Gradient(engine, obj, vars)
      case Failure(_) =>
      case Success(g) =>
        match num.lambdify(vars, g)
        case Failure(_) =>
        case Success(grad) =>
          DescentSpec(grad, num.converged, s.learningRate, s.tolerance, StartVector(vars, s.initialPoint), s.maxIterations);
  }

  class GradientDescent {
    var computationTime: real
    var iterations: int

    constructor ()
      ensures computationTime == 0.0 && iterations == 0
    {
      computationTime := 0.0;
      iterations := 0;
    }

    /**
     * The `for` loop of lines 44-56, given a successfully built gradient
     * function: the field is written after each applied update only.
     */
    method Descend(grad: seq<real> -> Result<seq<real>, Exception>, conv: (seq<real>, seq<real>, real) -> bool,
                   x0: seq<real>, lr: real, maxIterations: int, tol: real)
      returns (run: Run)
      modifies this`iterations
      ensures run == Descent(grad, conv, lr, tol, x0, 0, maxIterations)
      ensures iterations == IterationsAfter(run.updates, old(iterations))
    {
      var xCurrent := x0;
      var iteration: nat := 0;
      while iteration < maxIterations
        invariant Descent(grad, conv, lr, tol, x0, 0, maxIterations)
               == Descent(grad, conv, lr, tol, xCurrent, iteration, maxIterations)
        invariant iterations == IterationsAfter(iteration, old(iterations))
        decreases maxIterations - iteration
      {
        var gradVal: seq<real>;
        match grad(xCurrent) {
          case Failure(e) => return Crashed(e, iteration);
          case Success(g) => gradVal := g;
        }
        var xNew: seq<real>;
        match Step(xCurrent, lr, gradVal) {
          case Failure(e) => return Crashed(e, iteration);
          case Success(y) => xNew := y;
        }
        if conv(xNew, xCurrent, tol) {
          return Finished(xCurrent, iteration);
        }
        xCurrent := xNew;
        iterations := iteration + 1;
        iteration := iteration + 1;
      }
      run := Finished(xCurrent, iteration);
    }

    /**
     * The body of `solve` with the parser looked up under `parserName`.
     * `elapsed` stands for the clock reading `time.time() - start_time`.
     */
    method SolveWith(engine: Engine, num: Numeric, parserName: string, objective: string, s: Settings, elapsed: real)
      returns (r: Outcome<Point>)
      requires ParserName(parserName)
      modifies this
      ensures (r, iterations) == DescentResult(engine, num, parserName, objective, s, old(iterations), elapsed)
      ensures computationTime == if r.Solved? then elapsed else old(computationTime)
    {
      var parse: string -> Result<Expr, Exception>;
      match LookupParser(engine, parserName) {
        case Failure(e) => return ErrorRecord(e, elapsed);
        case Success(p) => parse := p;
      }
      var objExpr: Expr;
      match parse(objective) {
        case Failure(e) => return ErrorRecord(e, elapsed);
        case Success(x) => objExpr := x;
      }
      var variables := Variables(engine, objExpr);
      var xCurrent := StartVector(variables, s.initialPoint);
      var gradientExpr: seq<Expr>;
      match Gradient(engine, objExpr, variables) {
        case Failure(e) => return ErrorRecord(e, elapsed);
        case Success(g) => gradientExpr := g;
      }
      var gradFunc: seq<real> -> Result<seq<real>, Exception>;
      match num.lambdify(variables, gradientExpr) {
        case Failure(e) => return ErrorRecord(e, elapsed);
        case Success(f) => gradFunc := f;
      }
      var run := Descend(gradFunc, num.converged, xCurrent, s.learningRate, s.maxIterations, s.tolerance);
      if run.Crashed? {
        return ErrorRecord(run.error, elapsed);
      }
      var optimalPoint := PointOf(variables, run.point);
      match num.evaluate(objExpr, optimalPoint) {
        case Failure(e) => return ErrorRecord(e, elapsed);
        case Success(v) =>
          computationTime := elapsed;
          r := Solved(optimalPoint, v, iterations, computationTime, METHOD_NAME);
      }
    }

    /** `solve` as written: it asks for `_parse_function`, which does not exist. */
    method Solve(engine: Engine, num: Numeric, objective: string, s: Settings, elapsed: real)
      returns (r: Outcome<Point>)
      modifies this
      ensures r == FailedRecord(0, elapsed, METHOD_NAME,
                                ERROR_PREFIX + "'GradientDescent' object has no attribute '_parse_function'")
      ensures iterations == old(iterations) && computationTime == old(computationTime)
    {
      r := SolveWith(engine, num, PARSER_AS_WRITTEN, objective, s, elapsed);
      AsWrittenNeverSolves(engine, num, objective, s, old(iterations), elapsed);
    }

    /** `solve` with the parser call spelled as `BaseOptimizer` defines it. */
    method SolveResolved(engine: Engine, num: Numeric, objective: string, s: Settings, elapsed: real)
      returns (r: Outcome<Point>)
      modifies this
      ensures (r, iterations) == DescentResult(engine, num, PARSER_DEFINED, objective, s, old(iterations), elapsed)
      ensures computationTime == if r.Solved? then elapsed else old(computationTime)
    {
      r := SolveWith(engine, num, PARSER_DEFINED, objective, s, elapsed);
    }
  }
}

=== FILE: lagrange_method.dfy ===
/**
 * `LagrangeMethod`: equality-constrained optimisation by Lagrange
 * multipliers. L = f + sum of lambda_i * g_i; solve grad L = 0 over the
 * objective's variables and the multipliers; report the best solution with
 * the multipliers projected away.
 */
module Lagrange {
  import opened Wrappers
  import opened Strings
  import opened Sympy
  import opened BaseOptimizer
  import PartialDerivate

  const ERROR_PREFIX := "Error en método de Lagrange: "
  const METHOD_NAME := "Lagrange Multipliers"

  /** The name of the `i`-th multiplier symbol, as `symbols('lambda0:k')` numbers them. */
  function MultiplierName(i: nat): (name: string)
    ensures |name| > 6 && name[..6] == "lambda"
  {
    "lambda" + Decimal(i)
  }

  /** The multipliers `lambda0 ... lambda{k-1}`, one per constraint. */
  function Multipliers(k: nat): (names: seq<string>)
    ensures |names| == k
    ensures forall i :: 0 <= i < k ==> names[i] == MultiplierName(i)
  {
    seq(k, i requires 0 <= i => MultiplierName(i))
  }

  /** The multiplier names are pairwise distinct. */
  lemma MultipliersDistinct(k: nat)
    ensures forall i, j :: 0 <= i < j < k ==> Multipliers(k)[i] != Multipliers(k)[j]
  {
    forall i, j | 0 <= i < j < k
      ensures Multipliers(k)[i] != Multipliers(k)[j]
    {
      if MultiplierName(i) == MultiplierName(j) {
        assert MultiplierName(i)[6..] == Decimal(i);
        assert MultiplierName(j)[6..] == Decimal(j);
        DecimalInjective(i, j);
      }
    }
  }

  /** The term `lambdas[i] * constr` the loop adds for constraint `i`. */
  function Term(i: nat, c: Expr): Expr
  {
    Product(Symbol(MultiplierName(i)), c)
  }

  /** `L` after the loop has added the terms of the constraints `cs`, in order. */
  function Lagrangian(obj: Expr, cs: seq<Expr>): (L: Expr)
    ensures Summands(L, |cs|).Some? && Summands(L, |cs|).value.0 == obj && |Summands(L, |cs|).value.1| == |cs|
    decreases |cs|
  {
    if cs == [] then obj
    else Sum(Lagrangian(obj, cs[..|cs| - 1]), Term(|cs| - 1, cs[|cs| - 1]))
  }

  /**
   * Peels `n` summands off the right of a left-nested sum: the innermost
   * left operand and the summands in the order they were added.
   */
  function Summands(e: Expr, n: nat): Option<(Expr, seq<Expr>)>
    decreases n
  {
    if n == 0 then Some((e, []))
    else
      match e
      case Sum(l, r) =>
        (match Summands(l, n - 1)
         case None => None
         case Some(p) => Some((p.0, p.1 + [r])))
      case _ => None
  }

  /**
   * The Lagrangian is the objective followed by exactly one term per
   * constraint, and the `i`-th term multiplies constraint `i` by `lambda{i}`.
   */
  lemma {:induction false} LagrangianTerms(obj: Expr, cs: seq<Expr>)
    ensures Summands(Lagrangian(obj, cs), |cs|).Some?
    ensures var p := Summands(Lagrangian(obj, cs), |cs|).value;
            p.0 == obj && |p.1| == |cs| && forall i :: 0 <= i < |cs| ==> p.1[i] == Term(i, cs[i])
    decreases |cs|
  {
    if cs != [] {
      var init := cs[..|cs| - 1];
      LagrangianTerms(obj, init);
      var p := Summands(Lagrangian(obj, init), |init|).value;
      assert Summands(Lagrangian(obj, cs), |cs|).value == (p.0, p.1 + [Term(|cs| - 1, cs[|cs| - 1])]);
    }
  }

  /** The loop on lines 32-34, building `L` one term at a time. */
  method BuildLagrangian(obj: Expr, cs: seq<Expr>) returns (L: Expr)
    ensures L == Lagrangian(obj, cs)
  {
    var lambdas := Multipliers(|cs|);
    L := obj;
    for i := 0 to |cs|
      invariant L == Lagrangian(obj, cs[..i])
    {
      assert cs[..i + 1][..i] == cs[..i];
      L := Sum(L, Product(Symbol(lambdas[i]), cs[i]));
    }
    assert cs[..|cs|] == cs;
  }

  /** The candidate point of a solution: its entries for the objective's variables only. */
  function Project(sol: Solution, vars: seq<string>): (point: Solution)
    ensures forall v :: v in point <==> v in vars && v in sol
    ensures forall v :: v in point ==> point[v] == sol[v]
  {
    map v | v in vars && v in sol :: sol[v]
  }

  function Projections(sols: seq<Solution>, vars: seq<string>): (points: seq<Solution>)
    ensures |points| == |sols|
    ensures forall i :: 0 <= i < |sols| ==> points[i] == Project(sols[i], vars)
  {
    seq(|sols|, i requires 0 <= i < |sols| => Project(sols[i], vars))
  }

  /** What lines 24-41 compute before the selection loop. */
  datatype System = System(objective: Expr, constraints: seq<Expr>, variables: seq<string>,
                           multipliers: seq<string>, lagrangian: Expr, equations: seq<Expr>,
                           solutions: seq<Solution>)

  function Analyse(engine: Engine, objective: string, constraints: seq<string>): (r: Result<System, Exception>)
    ensures engine.sympify(objective).Failure? ==> r == Failure(engine.sympify(objective).error)
    ensures r.Success? ==> && |r.value.constraints| == |constraints|
                           && r.value.multipliers == Multipliers(|constraints|)
                           && |r.value.equations| == |r.value.variables| + |constraints|
                           && engine.solve(r.value.equations, r.value.variables + r.value.multipliers)
                              == Success(r.value.solutions)
  {
    match engine.sympify(objective)
    case Failure(e) => Failure(e)
    case Success(obj) =>
      match MapResult(engine.sympify, constraints)
      case Failure(e) => Failure(e)
      case Success(cexprs) =>
        var vars := Variables(engine, obj);
        var lambdas := Multipliers(|constraints|);
        var L := Lagrangian(obj, cexprs);
        match Gradient(engine, L, vars + lambdas)
        case Failure(e) => Failure(e)
        case Success(eqs) =>
          match engine.solve(eqs, vars + lambdas)
          case Failure(e) => Failure(e)
          case Success(sols) => Success(System(obj, cexprs, vars, lambdas, L, eqs, sols))
  }

  /**
   * The system solved: every constraint parsed in order, one multiplier per
   * constraint, and one equation per objective variable followed by one per
   * multiplier, each the derivative of the Lagrangian.
   */
  lemma {:induction false} LagrangeSystem(engine: Engine, objective: string, constraints: seq<string>)
    requires Analyse(engine, objective, constraints).Success?
    ensures var sys := Analyse(engine, objective, constraints).value;
            && engine.sympify(objective) == Success(sys.objective)
            && |sys.constraints| == |constraints|
            && (forall i :: 0 <= i < |constraints| ==> engine.sympify(constraints[i]) == Success(sys.constraints[i]))
            && StrictlyAscending(sys.variables)
            && (forall v :: v in sys.variables <==> v in engine.freeSymbols(sys.objective))
            && sys.multipliers == Multipliers(|constraints|)
            && sys.lagrangian == Lagrangian(sys.objective, sys.constraints)
            && |sys.equations| == |sys.variables| + |constraints|
            && (forall i :: 0 <= i < |sys.variables| ==>
                  engine.diff(sys.lagrangian, sys.variables[i]) == Success(sys.equations[i]))
            && (forall i :: 0 <= i < |constraints| ==>
                  engine.diff(sys.lagrangian, MultiplierName(i)) == Success(sys.equations[|sys.variables| + i]))
            && engine.solve(sys.equations, sys.variables + sys.multipliers) == Success(sys.solutions)
  {
    var obj := engine.sympify(objective).value;
    var cexprs := MapResult(engine.sympify, constraints).value;
    var vars := Variables(engine, obj);
    var all := vars + Multipliers(|constraints|);
    var L := Lagrangian(obj, cexprs);
    var eqs := Gradient(engine, L, all).value;
    assert Analyse(engine, objective, constraints).value
        == System(obj, cexprs, vars, Multipliers(|constraints|), L, eqs, engine.solve(eqs, all).value);
    forall i | 0 <= i < |constraints|
      ensures engine.diff(L, MultiplierName(i)) == Success(eqs[|vars| + i])
    {
      assert all[|vars| + i] == MultiplierName(i);
    }
  }

  /**
   * With no constraints there are no multipliers, `L` is the objective, and
   * the system is exactly the one the partial-derivatives method solves.
   */
  lemma NoConstraintsIsCriticalPointSearch(engine: Engine, objective: string)
    ensures Analyse(engine, objective, []).Success? <==> PartialDerivate.Analyse(engine, objective).Success?
    ensures Analyse(engine, objective, []).Failure? ==>
            Analyse(engine, objective, []).error == PartialDerivate.Analyse(engine, objective).error
    ensures Analyse(engine, objective, []).Success? ==>
            var sys := Analyse(engine, objective, []).value;
            var p := PartialDerivate.Analyse(engine, objective).value;
            && sys.multipliers == [] && sys.lagrangian == sys.objective == p.objective
            && sys.variables == p.variables && sys.equations == p.equations && sys.solutions == p.solutions
  {
    if engine.sympify(objective).Success? {
      var obj := engine.sympify(objective).value;
      var vars := Variables(engine, obj);
      assert vars + Multipliers(0) == vars;
    }
  }

  /** The dictionary `solve` returns. */
  function LagrangeResult(engine: Engine, objective: string, constraints: seq<string>, elapsed: real): (o: Outcome<Solution>)
    ensures !o.FailedRecord?
    ensures Analyse(engine, objective, constraints).Failure? ==> o.Failed?
    ensures o.Solved? ==> Analyse(engine, objective, constraints).Success?
                          && (forall v :: v in o.optimalPoint ==> v in Analyse(engine, objective, constraints).value.variables)
                          && o.iterations == 1 && o.methodName == METHOD_NAME
  {
    match Analyse(engine, objective, constraints)
    case Failure(e) => Failed(ERROR_PREFIX + e.text)
    case Success(sys) =>
      AnalyticOutcome(Projections(sys.solutions, sys.variables), p => engine.toFloat(sys.objective, p),
                      METHOD_NAME, ERROR_PREFIX, elapsed)
  }

  /** No solutions: exactly `{'error': 'No se encontraron soluciones'}`. */
  lemma NoSolutions(engine: Engine, objective: string, constraints: seq<string>, elapsed: real)
    requires Analyse(engine, objective, constraints).Success?
    requires Analyse(engine, objective, constraints).value.solutions == []
    ensures LagrangeResult(engine, objective, constraints, elapsed) == Failed(NO_SOLUTIONS)
  {
  }

  /** The selection over a solved system: the projections ranked by the objective's value. */
  lemma LeastProjectionOf(engine: Engine, sys: System, elapsed: real)
    requires AnalyticOutcome(Projections(sys.solutions, sys.variables), p => engine.toFloat(sys.objective, p),
                             METHOD_NAME, ERROR_PREFIX, elapsed).Solved?
    ensures var o := AnalyticOutcome(Projections(sys.solutions, sys.variables), p => engine.toFloat(sys.objective, p),
                                     METHOD_NAME, ERROR_PREFIX, elapsed);
            && o.iterations == 1 && o.methodName == METHOD_NAME && o.computationTime == elapsed
            && (forall j :: 0 <= j < |sys.solutions| ==>
                  var value := engine.toFloat(sys.objective, Project(sys.solutions[j], sys.variables));
                  value.Success? && o.optimalValue <= value.value)
            && exists k :: 0 <= k < |sys.solutions|
                           && o.optimalPoint == Project(sys.solutions[k], sys.variables)
                           && engine.toFloat(sys.objective, o.optimalPoint) == Success(o.optimalValue)
                           && forall j :: 0 <= j < k ==>
                                o.optimalValue < engine.toFloat(sys.objective, Project(sys.solutions[j], sys.variables)).value
  {
    var points := Projections(sys.solutions, sys.variables);
    var value := p => engine.toFloat(sys.objective, p);
    AnalyticSolved(points, value, METHOD_NAME, ERROR_PREFIX, elapsed);
    forall j | 0 <= j < |sys.solutions|
      ensures engine.toFloat(sys.objective, Project(sys.solutions[j], sys.variables)) == value(points[j])
    {
    }
  }

  /**
   * A success reports the projection of the first solution of least value:
   * its keys are objective variables only (so no multiplier, unless the
   * objective itself has a symbol of that name), its values the solver's.
   */
  lemma LeastProjectedPoint(engine: Engine, objective: string, constraints: seq<string>, elapsed: real)
    requires LagrangeResult(engine, objective, constraints, elapsed).Solved?
    ensures Analyse(engine, objective, constraints).Success?
    ensures var o := LagrangeResult(engine, objective, constraints, elapsed);
            var sys := Analyse(engine, objective, constraints).value;
            && o.iterations == 1 && o.methodName == METHOD_NAME && o.computationTime == elapsed
            && (forall v :: v in o.optimalPoint ==> v in sys.variables)
            && (forall i: nat :: MultiplierName(i) !in sys.variables ==> MultiplierName(i) !in o.optimalPoint)
            && (forall j :: 0 <= j < |sys.solutions| ==>
                  var value := engine.toFloat(sys.objective, Project(sys.solutions[j], sys.variables));
                  value.Success? && o.optimalValue <= value.value)
            && exists k :: 0 <= k < |sys.solutions|
                           && o.optimalPoint == Project(sys.solutions[k], sys.variables)
                           && engine.toFloat(sys.objective, o.optimalPoint) == Success(o.optimalValue)
                           && forall j :: 0 <= j < k ==>
                                o.optimalValue < engine.toFloat(sys.objective, Project(sys.solutions[j], sys.variables)).value
  {
    var sys := Analyse(engine, objective, constraints).value;
    LeastProjectionOf(engine, sys, elapsed);
  }

  /**
   * Every failure is a one-key dictionary. In particular a solution that
   * leaves an objective variable free makes the evaluation raise, and the
   * whole call fails with the text of the first such exception.
   */
  lemma Failures(engine: Engine, objective: string, constraints: seq<string>, elapsed: real)
    ensures var o := LagrangeResult(engine, objective, constraints, elapsed);
            !o.FailedRecord? && (o.Failed? ==> Keys(o) == ["error"])
    ensures Analyse(engine, objective, constraints).Failure? ==>
            LagrangeResult(engine, objective, constraints, elapsed)
              == Failed(ERROR_PREFIX + Analyse(engine, objective, constraints).error.text)
    ensures Analyse(engine, objective, constraints).Success? ==>
            var sys := Analyse(engine, objective, constraints).value;
            var o := LagrangeResult(engine, objective, constraints, elapsed);
            (exists i :: 0 <= i < |sys.solutions|
                         && engine.toFloat(sys.objective, Project(sys.solutions[i], sys.variables)).Failure?)
            <==> (sys.solutions != [] && o.Failed?)
  {
    match Analyse(engine, objective, constraints)
    case Failure(e) =>
    case Success(sys) =>
      var points := Projections(sys.solutions, sys.variables);
      var value := p => engine.toFloat(sys.objective, p);
      AnalyticFailed(points, value, METHOD_NAME, ERROR_PREFIX, elapsed);
      assert (exists i :: 0 <= i < |points| && value(points[i]).Failure?) <==>
             (exists i :: 0 <= i < |sys.solutions|
                          && engine.toFloat(sys.objective, Project(sys.solutions[i], sys.variables)).Failure?);
  }

  class LagrangeMethod {
    var computationTime: real
    var iterations: int

    constructor ()
      ensures computationTime == 0.0 && iterations == 0
    {
      computationTime := 0.0;
      iterations := 0;
    }

    /**
     * `solve(objective, constraints)`. `elapsed` stands for the clock reading
     * `time.time() - start_time`; the field is written only on success.
     */
    method Solve(engine: Engine, objective: string, constraints: seq<string>, elapsed: real)
      returns (r: Outcome<Solution>)
      modifies this`computationTime
      ensures r == LagrangeResult(engine, objective, constraints, elapsed)
      ensures computationTime == if r.Solved? then elapsed else old(computationTime)
    {
      var obj: Expr;
      match engine.sympify(objective) {
        case Failure(e) => return Failed(ERROR_PREFIX + e.text);
        case Success(x) => obj := x;
      }
      var constraintExprs: seq<Expr>;
      match MapResult(engine.sympify, constraints) {
        case Failure(e) => return Failed(ERROR_PREFIX + e.text);
        case Success(cs) => constraintExprs := cs;
      }
      var variables := Variables(engine, obj);
      var lambdas := Multipliers(|constraints|);
      var L := BuildLagrangian(obj, constraintExprs);
      var allVars := variables + lambdas;
      var gradientEqs: seq<Expr>;
      match Gradient(engine, L, allVars) {
        case Failure(e) => return Failed(ERROR_PREFIX + e.text);
        case Success(eqs) => gradientEqs := eqs;
      }
      var solutions: seq<Solution>;
      match engine.solve(gradientEqs, allVars) {
        case Failure(e) => return Failed(ERROR_PREFIX + e.text);
        case Success(sols) => solutions := sols;
      }
      if solutions == [] {
        return Failed(NO_SOLUTIONS);
      }
      var points := Projections(solutions, variables);
      var best := SelectFirstMinimum(points, p => engine.toFloat(obj, p));
      if best.Failure? {
        return Failed(ERROR_PREFIX + best.error.text);
      }
      var choice := best.value.value;
      computationTime := elapsed;
      r := Solved(points[choice.index], choice.value, 1, computationTime, METHOD_NAME);
    }
  }
}

=== FILE: main.dfy ===
/**
 * `main`: run the solvers the selector names and collect their dictionaries
 * under the keys gradient, lagrange, partial and unconstrained.
 */
module MainProgram {
  import opened Wrappers
  import opened Sympy
  import opened BaseOptimizer
  import GD = GradientDescent
  import Lagrange
  import PartialDerivate
  import CliInterface

  /** The dictionary `get_problem_input` returns. */
  datatype ProblemData = ProblemData(objective: string, constraints: seq<string>, initialPoint: GD.Point,
                                     learningRate: real, maxIterations: int, selector: string)

  /** The clock readings each solver takes at its end. */
  datatype Timings = Timings(gradient: real, lagrange: real, partial: real)

  /** A solver's dictionary, by the solver that produced it. */
  datatype Report =
    | GradientReport(descent: Outcome<GD.Point>)
    | LagrangeReport(lagrange: Outcome<Solution>)
    | PartialReport(partial: Outcome<Solution>)
    | UnconstrainedReport(unconstrained: Outcome<GD.Point>)

  /** The order in which `main` inserts the keys. */
  function Rank(key: string): nat
  {
    if key == "gradient" then 0 else if key == "lagrange" then 1 else if key == "partial" then 2 else 3
  }

  function ResultKeys(results: seq<(string, Report)>): (keys: seq<string>)
    ensures |keys| == |results| && forall i :: 0 <= i < |results| ==> keys[i] == results[i].0
  {
    seq(|results|, i requires 0 <= i < |results| => results[i].0)
  }

  /** The settings `main` passes to gradient descent: positional arguments, default tolerance. */
  function DescentSettings(p: ProblemData): GD.Settings
  {
    GD.Settings(p.initialPoint, p.learningRate, p.maxIterations, GD.DEFAULT_TOLERANCE)
  }

  /** One key, present or not. */
  function Picked(on: bool, key: string): seq<string>
  {
    if on then [key] else []
  }

  /** The keys `main` inserts for a selector, in insertion order. */
  function SelectedKeys(selector: string, constrained: bool): (keys: seq<string>)
    ensures "gradient" in keys <==> selector == "all" || selector == "gradient"
    ensures "lagrange" in keys <==> (selector == "all" || selector == "lagrange") && constrained
    ensures "partial" in keys <==> selector == "all" || selector == "partial"
    ensures "unconstrained" in keys <==> selector == "all" || selector == "unconstrained"
    ensures forall i, j :: 0 <= i < j < |keys| ==> Rank(keys[i]) < Rank(keys[j])
    ensures forall k :: k in keys ==> k in ["gradient", "lagrange", "partial", "unconstrained"]
  {
    Picked(selector == "all" || selector == "gradient", "gradient")
    + Picked((selector == "all" || selector == "lagrange") && constrained, "lagrange")
    + Picked(selector == "all" || selector == "partial", "partial")
    + Picked(selector == "all" || selector == "unconstrained", "unconstrained")
  }

  /** Lines 23-32: the gradient-descent entry. */
  function GradientPart(engine: Engine, num: GD.Numeric, p: ProblemData, t: Timings): (r: seq<(string, Report)>)
    ensures ResultKeys(r) == Picked(p.selector == "all" || p.selector == "gradient", "gradient")
  {
    if p.selector == "all" || p.selector == "gradient"
    then [("gradient", GradientReport(GD.DescentResult(engine, num, GD.PARSER_AS_WRITTEN, p.objective,
                                                       DescentSettings(p), 0, t.gradient).0))]
    else []
  }

  /** Lines 34-43: the Lagrange entry, only with constraints. */
  function LagrangePart(engine: Engine, p: ProblemData, t: Timings): (r: seq<(string, Report)>)
    ensures ResultKeys(r) == Picked((p.selector == "all" || p.selector == "lagrange") && p.constraints != [], "lagrange")
  {
    if (p.selector == "all" || p.selector == "lagrange") && p.constraints != []
    then [("lagrange", LagrangeReport(Lagrange.LagrangeResult(engine, p.objective, p.constraints, t.lagrange)))]
    else []
  }

  /** Lines 45-51: the partial-derivatives entry. */
  function PartialPart(engine: Engine, p: ProblemData, t: Timings): (r: seq<(string, Report)>)
    ensures ResultKeys(r) == Picked(p.selector == "all" || p.selector == "partial", "partial")
  {
    if p.selector == "all" || p.selector == "partial"
    then [("partial", PartialReport(PartialDerivate.CriticalPointResult(engine, p.objective, t.partial)))]
    else []
  }

  /** Lines 53-59: the unconstrained entry. */
  function UnconstrainedPart(unconstrained: string -> Outcome<GD.Point>, p: ProblemData): (r: seq<(string, Report)>)
    ensures ResultKeys(r) == Picked(p.selector == "all" || p.selector == "unconstrained", "unconstrained")
  {
    if p.selector == "all" || p.selector == "unconstrained"
    then [("unconstrained", UnconstrainedReport(unconstrained(p.objective)))]
    else []
  }

  /** The keys of a concatenation are the keys of its parts. */
  lemma KeysOfParts(g: seq<(string, Report)>, l: seq<(string, Report)>, d: seq<(string, Report)>,
                    u: seq<(string, Report)>)
    ensures ResultKeys(g + l + d + u) == ResultKeys(g) + ResultKeys(l) + ResultKeys(d) + ResultKeys(u)
  {
    var r := g + l + d + u;
    var keys := ResultKeys(g) + ResultKeys(l) + ResultKeys(d) + ResultKeys(u);
    forall i | 0 <= i < |r| ensures ResultKeys(r)[i] == keys[i] {
      if i < |g| {
      } else if i < |g| + |l| {
        assert r[i] == l[i - |g|];
      } else if i < |g| + |l| + |d| {
        assert r[i] == d[i - |g| - |l|];
      } else {
        assert r[i] == u[i - |g| - |l| - |d|];
      }
    }
  }

  /** The `results` dictionary as a list of entries in insertion order: the keys the selector picks. */
  function Results(engine: Engine, num: GD.Numeric, unconstrained: string -> Outcome<GD.Point>,
                   p: ProblemData, t: Timings): (r: seq<(string, Report)>)
    ensures ResultKeys(r) == SelectedKeys(p.selector, p.constraints != [])
  {
    var g, l, d, u := GradientPart(engine, num, p, t), LagrangePart(engine, p, t), PartialPart(engine, p, t),
                      UnconstrainedPart(unconstrained, p);
    KeysOfParts(g, l, d, u);
    g + l + d + u
  }

  /**
   * Which keys exist: each solver's key iff the selector is `all` or its own
   * name, and `lagrange` only with at least one constraint; keys come in the
   * order gradient, lagrange, partial, unconstrained, each at most once.
   */
  lemma ResultKeySet(engine: Engine, num: GD.Numeric, unconstrained: string -> Outcome<GD.Point>,
                     p: ProblemData, t: Timings)
    ensures var keys := ResultKeys(Results(engine, num, unconstrained, p, t));
            && ("gradient" in keys <==> p.selector == "all" || p.selector == "gradient")
            && ("lagrange" in keys <==> (p.selector == "all" || p.selector == "lagrange") && p.constraints != [])
            && ("partial" in keys <==> p.selector == "all" || p.selector == "partial")
            && ("unconstrained" in keys <==> p.selector == "all" || p.selector == "unconstrained")
            && (forall i, j :: 0 <= i < j < |keys| ==> Rank(keys[i]) < Rank(keys[j]))
            && (forall k :: k in keys ==> k in ["gradient", "lagrange", "partial", "unconstrained"])
  {
  }

  /** Any selector other than the five names leaves `results` empty. */
  lemma UnknownSelector(engine: Engine, num: GD.Numeric, unconstrained: string -> Outcome<GD.Point>,
                        p: ProblemData, t: Timings)
    requires p.selector !in {"all", "gradient", "lagrange", "partial", "unconstrained"}
    ensures Results(engine, num, unconstrained, p, t) == []
  {
  }

  /**
   * A selector that comes from the menu runs at least one solver, except
   * Lagrange chosen alone with no constraints, which leaves `results` empty.
   */
  lemma MenuSelectionRuns(engine: Engine, num: GD.Numeric, unconstrained: string -> Outcome<GD.Point>,
                          p: ProblemData, t: Timings, option: string)
    requires p.selector == CliInterface.SelectorFor(option)
    ensures Results(engine, num, unconstrained, p, t) == [] <==> option == "3" && p.constraints == []
  {
    ResultKeySet(engine, num, unconstrained, p, t);
    CliInterface.MenuRoundTrip(p.selector, option);
    var keys := ResultKeys(Results(engine, num, unconstrained, p, t));
    if p.selector != "lagrange" {
      assert p.selector in CliInterface.SELECTORS;
      assert keys != [];
    }
  }

  /**
   * The entries hold what the solvers return: gradient descent, whose parser
   * lookup fails, always gives the AttributeError record with the clock
   * reading; Lagrange and partial derivatives run on the objective and the
   * constraint list as given.
   */
  lemma ResultEntries(engine: Engine, num: GD.Numeric, unconstrained: string -> Outcome<GD.Point>,
                      p: ProblemData, t: Timings)
    ensures forall e :: e in Results(engine, num, unconstrained, p, t) ==>
              match e.1
              case GradientReport(o) =>
                e.0 == "gradient"
                && o == FailedRecord(0, t.gradient, GD.METHOD_NAME,
                                     GD.ERROR_PREFIX + "'GradientDescent' object has no attribute '_parse_function'")
              case LagrangeReport(o) =>
                e.0 == "lagrange" && o == Lagrange.LagrangeResult(engine, p.objective, p.constraints, t.lagrange)
              case PartialReport(o) =>
                e.0 == "partial" && o == PartialDerivate.CriticalPointResult(engine, p.objective, t.partial)
              case UnconstrainedReport(o) =>
                e.0 == "unconstrained" && o == unconstrained(p.objective)
  {
    GD.AsWrittenNeverSolves(engine, num, p.objective, DescentSettings(p), 0, t.gradient);
    var g, l, d, u := GradientPart(engine, num, p, t), LagrangePart(engine, p, t), PartialPart(engine, p, t),
                      UnconstrainedPart(unconstrained, p);
    assert Results(engine, num, unconstrained, p, t) == g + l + d + u;
    assert forall e :: e in g + l + d + u <==> e in g || e in l || e in d || e in u;
  }

  /** A coordinate of a reported point: a sympy value from `solve`, or a float. */
  datatype Coordinate = Exact(expr: Expr) | Float(value: real)

  /** The keys of a dictionary, each once, in some order (Python's iteration order is not modelled). */
  ghost function KeysOf<V>(m: map<string, V>): (ks: seq<string>)
    ensures |ks| == |m.Keys|
    ensures forall k :: k in ks <==> k in m
    decreases |m.Keys|
  {
    if m.Keys == {} then []
    else
      var k :| k in m.Keys;
      var rest := m - {k};
      assert rest.Keys == m.Keys - {k};
      assert m.Keys == rest.Keys + {k};
      [k] + KeysOf(rest)
  }

  /**
   * `result.get('optimal_point', {})` as `display_comparative_results` passes
   * it to `_check_constraints` (Interfaces/cli_interface.py:81-84). The
   * analytic methods' points come from `solve(..., dict=True)` and are keyed
   * by sympy symbols; gradient descent keys its point by `var.name`. A failed
   * record carries the text 'N/A', a bare error dictionary has no point.
   */
  ghost function CheckedPoint(r: Report): (point: CliInterface.PointArg<Coordinate>)
    ensures (r.LagrangeReport? && r.lagrange.Solved?) || (r.PartialReport? && r.partial.Solved?) ==>
              && point.Entries?
              && |point.items| == |(if r.LagrangeReport? then r.lagrange else r.partial).optimalPoint.Keys|
              && forall i :: 0 <= i < |point.items| ==> point.items[i].0.Sym?
    ensures (r.GradientReport? && r.descent.Solved?) || (r.UnconstrainedReport? && r.unconstrained.Solved?) ==>
              point.Entries? && forall i :: 0 <= i < |point.items| ==> point.items[i].0.Name?
    ensures point.NotAvailable? <==> match r
                                     case GradientReport(o) => o.FailedRecord?
                                     case LagrangeReport(o) => o.FailedRecord?
                                     case PartialReport(o) => o.FailedRecord?
                                     case UnconstrainedReport(o) => o.FailedRecord?
  {
    match r
    case GradientReport(o) => FloatPoint(o)
    case UnconstrainedReport(o) => FloatPoint(o)
    case LagrangeReport(o) => SymbolPoint(o)
    case PartialReport(o) => SymbolPoint(o)
  }

  ghost function FloatPoint(o: Outcome<GD.Point>): CliInterface.PointArg<Coordinate>
  {
    match o
    case Solved(point, _, _, _, _) =>
      var ks := KeysOf(point);
      CliInterface.Entries(seq(|ks|, i requires 0 <= i < |ks| => (CliInterface.Name(ks[i]), Float(point[ks[i]]))))
    case Failed(_) => CliInterface.Entries([])
    case FailedRecord(_, _, _, _) => CliInterface.NotAvailable
  }

  ghost function SymbolPoint(o: Outcome<Solution>): CliInterface.PointArg<Coordinate>
  {
    match o
    case Solved(point, _, _, _, _) =>
      var ks := KeysOf(point);
      CliInterface.Entries(seq(|ks|, i requires 0 <= i < |ks| => (CliInterface.Sym(ks[i]), Exact(point[ks[i]]))))
    case Failed(_) => CliInterface.Entries([])
    case FailedRecord(_, _, _, _) => CliInterface.NotAvailable
  }

  /**
   * A solved Lagrange or partial-derivatives result with a non-empty point
   * never has its constraints judged: with any constraint the verdict is the
   * `replace` TypeError, whatever the residuals would be.
   */
  lemma SolvedAnalyticPointsFail(r: Report, constraints: seq<string>, show: Coordinate -> string,
                                 eval: string -> Result<real, Exception>)
    requires (r.LagrangeReport? && r.lagrange.Solved? && r.lagrange.optimalPoint != map[])
             || (r.PartialReport? && r.partial.Solved? && r.partial.optimalPoint != map[])
    requires constraints != []
    ensures CliInterface.CheckConstraintsVerdict(CheckedPoint(r), constraints, show, eval)
            == CliInterface.EvaluationError(CliInterface.TYPE_ERROR_TEXT)
  {
    var point := CheckedPoint(r);
    var m := if r.LagrangeReport? then r.lagrange.optimalPoint else r.partial.optimalPoint;
    assert m.Keys != {} by {
      var k :| k in m;
      assert k in m.Keys;
    }
    assert point.items[0].0.Sym?;
    CliInterface.NonStringKeysFail(point, constraints, show, eval);
  }

  /**
   * Lines 21-59. `unconstrained` stands for `UnconstrainedOptimizer().solve`,
   * which is not part of this model.
   */
  method Dispatch(engine: Engine, num: GD.Numeric, unconstrained: string -> Outcome<GD.Point>,
                  p: ProblemData, t: Timings)
    returns (results: seq<(string, Report)>)
    ensures results == Results(engine, num, unconstrained, p, t)
  {
    results := [];
    if p.selector == "all" || p.selector == "gradient" {
      var gradientSolver := new GD.GradientDescent();
      var r := gradientSolver.Solve(engine, num, p.objective,
                                    GD.Settings(p.initialPoint, p.learningRate, p.maxIterations,
                                                GD.DEFAULT_TOLERANCE), t.gradient);
      GD.AsWrittenNeverSolves(engine, num, p.objective, DescentSettings(p), 0, t.gradient);
      results := results + [("gradient", GradientReport(r))];
    }
    assert results == GradientPart(engine, num, p, t);
    if p.selector == "all" || p.selector == "lagrange" {
      if p.constraints != [] {
        var lagrangeSolver := new Lagrange.LagrangeMethod();
        var r := lagrangeSolver.Solve(engine, p.objective, p.constraints, t.lagrange);
        results := results + [("lagrange", LagrangeReport(r))];
      }
    }
    assert results == GradientPart(engine, num, p, t) + LagrangePart(engine, p, t);
    if p.selector == "all" || p.selector == "partial" {
      var partialSolver := new PartialDerivate.PartialDerivateOptimizer();
      var r := partialSolver.Solve(engine, p.objective, p.constraints, t.partial);
      results := results + [("partial", PartialReport(r))];
    }
    assert results == GradientPart(engine, num, p, t) + LagrangePart(engine, p, t) + PartialPart(engine, p, t);
    if p.selector == "all" || p.selector == "unconstrained" {
      results := results + [("unconstrained", UnconstrainedReport(unconstrained(p.objective)))];
    }
  }
}

=== FILE: partial_derivate.dfy ===
/**
 * `PartialDerivateOptimizer`: solve grad f = 0 symbolically and report the
 * critical point of least objective value.
 */
module PartialDerivate {
  import opened Wrappers
  import opened Strings
  import opened Sympy
  import opened BaseOptimizer

  const ERROR_PREFIX := "Error en método de derivadas parciales: "
  const METHOD_NAME := "Partial Derivatives"

  /** What lines 22-29 compute before the selection loop. */
  datatype System = System(objective: Expr, variables: seq<string>, equations: seq<Expr>, solutions: seq<Solution>)

  /** Parse, sort the variables, differentiate once per variable, solve. */
  function Analyse(engine: Engine, objective: string): (r: Result<System, Exception>)
    ensures engine.sympify(objective).Failure? ==> r == Failure(engine.sympify(objective).error)
    ensures r.Success? ==> && engine.sympify(objective) == Success(r.value.objective)
                           && StrictlyAscending(r.value.variables)
                           && |r.value.equations| == |r.value.variables|
                           && engine.solve(r.value.equations, r.value.variables) == Success(r.value.solutions)
  {
    match engine.sympify(objective)
    case Failure(e) => Failure(e)
    case Success(obj) =>
      var vars := Variables(engine, obj);
      match Gradient(engine, obj, vars)
      case Failure(e) => Failure(e)
      case Success(eqs) =>
        match engine.solve(eqs, vars)
        case Failure(e) => Failure(e)
        case Success(sols) => Success(System(obj, vars, eqs, sols))
  }

  /** The equation list: one derivative per variable of the objective, variables sorted by name. */
  lemma Stationarity(engine: Engine, objective: string)
    requires Analyse(engine, objective).Success?
    ensures var sys := Analyse(engine, objective).value;
            && engine.sympify(objective) == Success(sys.objective)
            && StrictlyAscending(sys.variables)
            && (forall v :: v in sys.variables <==> v in engine.freeSymbols(sys.objective))
            && |sys.equations| == |sys.variables|
            && (forall i :: 0 <= i < |sys.variables| ==>
                  engine.diff(sys.objective, sys.variables[i]) == Success(sys.equations[i]))
            && engine.solve(sys.equations, sys.variables) == Success(sys.solutions)
  {
  }

  /** The dictionary `solve` returns. The constraints play no part in it. */
  function CriticalPointResult(engine: Engine, objective: string, elapsed: real): (o: Outcome<Solution>)
    ensures !o.FailedRecord?
    ensures Analyse(engine, objective).Failure? ==> o.Failed?
    ensures o.Solved? ==> Analyse(engine, objective).Success?
                          && o.optimalPoint in Analyse(engine, objective).value.solutions
                          && o.iterations == 1 && o.methodName == METHOD_NAME
  {
    match Analyse(engine, objective)
    case Failure(e) => Failed(ERROR_PREFIX + e.text)
    case Success(sys) =>
      AnalyticOutcome(sys.solutions, sol => engine.toFloat(sys.objective, sol), METHOD_NAME, ERROR_PREFIX, elapsed)
  }

  /** No solutions: exactly `{'error': 'No se encontraron soluciones'}`. */
  lemma NoSolutions(engine: Engine, objective: string, elapsed: real)
    requires Analyse(engine, objective).Success? && Analyse(engine, objective).value.solutions == []
    ensures CriticalPointResult(engine, objective, elapsed) == Failed(NO_SOLUTIONS)
    ensures Keys(CriticalPointResult(engine, objective, elapsed)) == ["error"]
  {
  }

  /**
   * A success reports one of the solver's solutions unchanged, whose value is
   * no greater than any other's and strictly less than every earlier one's.
   */
  lemma LeastCriticalPoint(engine: Engine, objective: string, elapsed: real)
    requires CriticalPointResult(engine, objective, elapsed).Solved?
    ensures Analyse(engine, objective).Success?
    ensures var o := CriticalPointResult(engine, objective, elapsed);
            var sys := Analyse(engine, objective).value;
            && o.iterations == 1 && o.methodName == METHOD_NAME && o.computationTime == elapsed
            && (forall j :: 0 <= j < |sys.solutions| ==>
                  engine.toFloat(sys.objective, sys.solutions[j]).Success?
                  && o.optimalValue <= engine.toFloat(sys.objective, sys.solutions[j]).value)
            && exists k :: 0 <= k < |sys.solutions| && o.optimalPoint == sys.solutions[k]
                           && engine.toFloat(sys.objective, sys.solutions[k]) == Success(o.optimalValue)
                           && forall j :: 0 <= j < k ==>
                                o.optimalValue < engine.toFloat(sys.objective, sys.solutions[j]).value
  {
    var sys := Analyse(engine, objective).value;
    AnalyticSolved(sys.solutions, sol => engine.toFloat(sys.objective, sol), METHOD_NAME, ERROR_PREFIX, elapsed);
  }

  /**
   * Every failure is a one-key dictionary: the no-solutions message, or the
   * method's prefix followed by the text of the first exception raised.
   */
  lemma Failures(engine: Engine, objective: string, elapsed: real)
    ensures var o := CriticalPointResult(engine, objective, elapsed);
            !o.FailedRecord? && (o.Failed? ==> Keys(o) == ["error"])
    ensures Analyse(engine, objective).Failure? ==>
            CriticalPointResult(engine, objective, elapsed) == Failed(ERROR_PREFIX + Analyse(engine, objective).error.text)
    ensures var o := CriticalPointResult(engine, objective, elapsed);
            o.Failed? && o.error != NO_SOLUTIONS ==> StartsWith(o.error, ERROR_PREFIX)
  {
    var o := CriticalPointResult(engine, objective, elapsed);
    match Analyse(engine, objective)
    case Failure(e) =>
      assert (ERROR_PREFIX + e.text)[..|ERROR_PREFIX|] == ERROR_PREFIX;
    case Success(sys) =>
      var value := sol => engine.toFloat(sys.objective, sol);
      AnalyticFailed(sys.solutions, value, METHOD_NAME, ERROR_PREFIX, elapsed);
      if o.Failed? && o.error != NO_SOLUTIONS {
        var i :| 0 <= i < |sys.solutions| && value(sys.solutions[i]).Failure?
                 && o.error == ERROR_PREFIX + value(sys.solutions[i]).error.text;
        assert o.error[..|ERROR_PREFIX|] == ERROR_PREFIX;
      }
  }

  class PartialDerivateOptimizer {
    var computationTime: real
    var iterations: int

    constructor ()
      ensures computationTime == 0.0 && iterations == 0
    {
      computationTime := 0.0;
      iterations := 0;
    }

    /**
     * `solve(objective, constraints)`. `elapsed` stands for the clock reading
     * `time.time() - start_time`; the field is written only on success.
     */
    method Solve(engine: Engine, objective: string, constraints: seq<string>, elapsed: real)
      returns (r: Outcome<Solution>)
      modifies this`computationTime
      ensures r == CriticalPointResult(engine, objective, elapsed)
      ensures computationTime == if r.Solved? then elapsed else old(computationTime)
    {
      var obj: Expr;
      match engine.sympify(objective) {
        case Failure(e) => return Failed(ERROR_PREFIX + e.text);
        case Success(x) => obj := x;
      }
      var variables := Variables(engine, obj);
      var partialDerivs: seq<Expr>;
      match Gradient(engine, obj, variables) {
        case Failure(e) => return Failed(ERROR_PREFIX + e.text);
        case Success(eqs) => partialDerivs := eqs;
      }
      var solutions: seq<Solution>;
      match engine.solve(partialDerivs, variables) {
        case Failure(e) => return Failed(ERROR_PREFIX + e.text);
        case Success(sols) => solutions := sols;
      }
      if solutions == [] {
        return Failed(NO_SOLUTIONS);
      }
      var best := SelectFirstMinimum(solutions, sol => engine.toFloat(obj, sol));
      if best.Failure? {
        return Failed(ERROR_PREFIX + best.error.text);
      }
      var choice := best.value.value;
      computationTime := elapsed;
      r := Solved(solutions[choice.index], choice.value, 1, computationTime, METHOD_NAME);
    }
  }
}

=== FILE: strings.dfy ===
/**
 * Python `str` operations the core relies on: the `<` order used by `sorted`,
 * sorting a collection of distinct names, `in` on substrings, `str.replace`,
 * and the decimal text of a natural number.
 */
module Strings {

  /** Python's `a < b` on strings: code point by code point, a proper prefix first. */
  predicate Below(a: string, b: string)
    ensures Below(a, b) ==> |b| > 0
    ensures |a| < |b| && a == b[..|a|] ==> Below(a, b)
  {
    |b| > 0 && (|a| == 0 || a[0] < b[0] || (a[0] == b[0] && Below(a[1..], b[1..])))
  }

  lemma BelowIrreflexive(a: string)
    ensures !Below(a, a)
  {
    if |a| > 0 {
      BelowIrreflexive(a[1..]);
    }
  }

  lemma BelowTransitive(a: string, b: string, c: string)
    requires Below(a, b) && Below(b, c)
    ensures Below(a, c)
  {
    if |a| > 0 && a[0] == b[0] && b[0] == c[0] {
      BelowTransitive(a[1..], b[1..], c[1..]);
    }
  }

  lemma BelowTotal(a: string, b: string)
    requires a != b
    ensures Below(a, b) || Below(b, a)
  {
    if |a| > 0 && |b| > 0 && a[0] == b[0] {
      BelowTotal(a[1..], b[1..]);
    }
  }

  lemma BelowAsymmetric(a: string, b: string)
    requires Below(a, b)
    ensures !Below(b, a)
  {
    if Below(b, a) {
      BelowTransitive(a, b, a);
      BelowIrreflexive(a);
    }
  }

  predicate StrictlyAscending(s: seq<string>)
  {
    forall i, j :: 0 <= i < j < |s| ==> Below(s[i], s[j])
  }

  /** Adds `x` to a strictly ascending list, keeping it strictly ascending. */
  function Insert(x: string, r: seq<string>): (t: seq<string>)
    requires StrictlyAscending(r)
    ensures StrictlyAscending(t)
    ensures forall w :: w in t <==> w == x || w in r
    ensures |t| > 0 && (Below(x, t[0]) || x == t[0] || (|r| > 0 && t[0] == r[0]))
  {
    if r == [] then [x]
    else if x == r[0] then r
    else if Below(x, r[0]) then
      assert forall j :: 0 < j < |r| ==> Below(x, r[j]) by {
        forall j | 0 < j < |r| ensures Below(x, r[j]) {
          BelowTransitive(x, r[0], r[j]);
        }
      }
      [x] + r
    else
      var rest := Insert(x, r[1..]);
      BelowTotal(x, r[0]);
      assert forall w :: w in rest ==> Below(r[0], w) by {
        forall w | w in rest ensures Below(r[0], w) {
          if w != x {
            var j :| 0 <= j < |r[1..]| && r[1..][j] == w;
            assert r[j + 1] == w;
          }
        }
      }
      [r[0]] + rest
  }

  /** `sorted(set(xs))`: the distinct elements of `xs` in ascending order. */
  function SortUnique(xs: seq<string>): (r: seq<string>)
    ensures StrictlyAscending(r)
    ensures forall w :: w in r <==> w in xs
  {
    if xs == [] then [] else Insert(xs[|xs| - 1], SortUnique(xs[..|xs| - 1]))
  }

  /**
   * A strictly ascending list is determined by its elements: sorting does not
   * depend on the order in which a set happens to be iterated.
   */
  lemma {:induction false} AscendingUnique(a: seq<string>, b: seq<string>)
    requires StrictlyAscending(a) && StrictlyAscending(b)
    requires forall w :: w in a <==> w in b
    ensures a == b
  {
    if a != [] {
      assert a[0] in a;
    }
    if b != [] {
      assert b[0] in b;
    }
    if a != [] && b != [] {
      assert a[0] == b[0] by {
        if a[0] != b[0] {
          FirstIsLeast(a, b[0]);
          FirstIsLeast(b, a[0]);
          BelowAsymmetric(a[0], b[0]);
        }
      }
      forall w ensures w in a[1..] <==> w in b[1..] {
        if w in a[1..] {
          var j :| 1 <= j < |a| && a[j] == w;
          BelowIrreflexive(w);
          assert w != a[0];
          assert w in b;
          var k :| 0 <= k < |b| && b[k] == w;
          assert k != 0;
        }
        if w in b[1..] {
          var j :| 1 <= j < |b| && b[j] == w;
          BelowIrreflexive(w);
          assert w != b[0];
          assert w in a;
          var k :| 0 <= k < |a| && a[k] == w;
          assert k != 0;
        }
      }
      AscendingUnique(a[1..], b[1..]);
      assert a == [a[0]] + a[1..] && b == [b[0]] + b[1..];
    }
  }

  lemma FirstIsLeast(a: seq<string>, w: string)
    requires StrictlyAscending(a) && w in a && w != a[0]
    ensures Below(a[0], w)
  {
  }

  predicate StartsWith(s: string, prefix: string)
  {
    |prefix| <= |s| && s[..|prefix|] == prefix
  }

  /** Python's `pat in s`. */
  predicate Contains(s: string, pat: string)
    decreases |s|
  {
    StartsWith(s, pat) || (|s| > 0 && Contains(s[1..], pat))
  }

  lemma {:induction false} ContainsAt(s: string, pat: string)
    ensures Contains(s, pat) <==> exists i :: 0 <= i <= |s| && StartsWith(s[i..], pat)
  {
    assert s[0..] == s;
    if |s| > 0 {
      ContainsAt(s[1..], pat);
      if Contains(s[1..], pat) {
        var i :| 0 <= i <= |s[1..]| && StartsWith(s[1..][i..], pat);
        assert s[1..][i..] == s[i + 1..];
      }
      if i :| 0 <= i <= |s| && StartsWith(s[i..], pat) {
        if i > 0 {
          assert s[1..][i - 1..] == s[i..];
        }
      }
    }
  }

  /** `"" .replace("", rep)` and friends: `rep` before every character and at the end. */
  function Interleave(s: string, rep: string): (r: string)
    ensures |r| == |s| + (|s| + 1) * |rep|
  {
    if s == [] then rep else rep + [s[0]] + Interleave(s[1..], rep)
  }

  /** Python's `s.replace(pat, rep)`: every non-overlapping occurrence, left to right. */
  function Replace(s: string, pat: string, rep: string): (r: string)
    ensures pat != [] && |rep| <= |pat| ==> |r| <= |s|
    ensures pat != [] && |pat| <= |rep| ==> |s| <= |r|
    decreases |s|
  {
    if pat == [] then Interleave(s, rep)
    else if |s| < |pat| then s
    else if s[..|pat|] == pat then rep + Replace(s[|pat|..], pat, rep)
    else [s[0]] + Replace(s[1..], pat, rep)
  }

  /** Nothing to replace leaves the text as it was. */
  lemma {:induction false} ReplaceAbsent(s: string, pat: string, rep: string)
    requires pat != [] && !Contains(s, pat)
    ensures Replace(s, pat, rep) == s
  {
    if |s| >= |pat| {
      assert s[..|pat|] != pat;
      ReplaceAbsent(s[1..], pat, rep);
      assert s == [s[0]] + s[1..];
    }
  }

  /** A one-character pattern is replaced piecewise: the rewrite distributes over concatenation. */
  lemma {:induction false} ReplaceCharConcat(a: string, b: string, c: char, rep: string)
    ensures Replace(a + b, [c], rep) == Replace(a, [c], rep) + Replace(b, [c], rep)
  {
    if a == [] {
      assert a + b == b;
    } else {
      assert (a + b)[..1] == a[..1];
      assert (a + b)[1..] == a[1..] + b;
      ReplaceCharConcat(a[1..], b, c, rep);
    }
  }

  /** One character: the pattern character becomes `rep`, any other stays. */
  lemma ReplaceChar(d: char, c: char, rep: string)
    ensures Replace([d], [c], rep) == if d == c then rep else [d]
  {
    var s := [d];
    assert s[1..] == [];
    if d != c {
      assert s[..1] != [c] by { assert s[..1][0] != [c][0]; }
    }
  }

  /** Text without the pattern character is left as it is. */
  lemma {:induction false} ReplaceCharAbsent(u: string, c: char, rep: string)
    requires c !in u
    ensures Replace(u, [c], rep) == u
  {
    if u != [] {
      assert u == [u[0]] + u[1..];
      ReplaceCharConcat([u[0]], u[1..], c, rep);
      ReplaceChar(u[0], c, rep);
      ReplaceCharAbsent(u[1..], c, rep);
    }
  }

  /** A single occurrence of the pattern character is replaced where it stands, whatever surrounds it. */
  lemma ReplaceOccurrence(u: string, v: string, c: char, rep: string)
    requires c !in u && c !in v
    ensures Replace(u + [c] + v, [c], rep) == u + rep + v
  {
    ReplaceCharConcat(u + [c], v, c, rep);
    ReplaceCharConcat(u, [c], c, rep);
    ReplaceChar(c, c, rep);
    ReplaceCharAbsent(u, c, rep);
    ReplaceCharAbsent(v, c, rep);
  }

  /** The decimal digits of `n`, as `str(n)` writes them. */
  function Decimal(n: nat): (s: string)
    ensures |s| > 0 && forall i :: 0 <= i < |s| ==> '0' <= s[i] <= '9'
    decreases n
  {
    if n < 10 then [DigitChar(n)] else Decimal(n / 10) + [DigitChar(n % 10)]
  }

  function DigitChar(d: nat): (c: char)
    requires d < 10
    ensures '0' <= c <= '9'
  {
    ['0', '1', '2', '3', '4', '5', '6', '7', '8', '9'][d]
  }

  function DigitValue(c: char): nat
  {
    if '0' <= c <= '9' then c as nat - '0' as nat else 0
  }

  /** The inverse of `Decimal`: the number a string of digits denotes. */
  function ParseDecimal(s: string): nat
    decreases |s|
  {
    if s == [] then 0 else 10 * ParseDecimal(s[..|s| - 1]) + DigitValue(s[|s| - 1])
  }

  lemma {:induction false} DecimalRoundTrip(n: nat)
    ensures ParseDecimal(Decimal(n)) == n
    decreases n
  {
    if n >= 10 {
      var s := Decimal(n);
      assert s[..|s| - 1] == Decimal(n / 10);
      DecimalRoundTrip(n / 10);
      assert DigitValue(DigitChar(n % 10)) == n % 10;
    } else {
      assert DigitValue(DigitChar(n)) == n;
    }
  }

  /** Different numbers have different decimal texts. */
  lemma DecimalInjective(m: nat, n: nat)
    requires Decimal(m) == Decimal(n)
    ensures m == n
  {
    DecimalRoundTrip(m);
    DecimalRoundTrip(n);
  }
}

=== FILE: sympy.dfy ===
/**
 * The symbolic engine the optimizers hand their algebra to. Nothing of its
 * algebra is modelled: every operation is a field of `Engine`. Parsing,
 * differentiation, solving and evaluation return their answer or the
 * exception they raised; the free symbols are a total function.
 */
module Sympy {
  import opened Wrappers

  /**
   * A symbolic expression. The optimizers build sums, products and symbols
   * themselves (the Lagrangian); everything else the engine produced is an
   * `Atom` whose inside the optimizers never look at.
   */
  datatype Expr =
    | Atom(id: nat)
    | Symbol(name: string)
    | Sum(left: Expr, right: Expr)
    | Product(left: Expr, right: Expr)

  /** One solution of `solve(..., dict=True)`: symbol name to value. */
  type Solution = map<string, Expr>

  datatype Engine = Engine(
    /** `sp.sympify(text)` */
    sympify: string -> Result<Expr, Exception>,
    /** the names of `expr.free_symbols`, in whatever order the set yields them */
    freeSymbols: Expr -> seq<string>,
    /** `sp.diff(expr, symbol)` */
    diff: (Expr, string) -> Result<Expr, Exception>,
    /** `sp.solve(equations, unknowns, dict=True)` */
    solve: (seq<Expr>, seq<string>) -> Result<seq<Solution>, Exception>,
    /** `float(expr.subs(point))` */
    toFloat: (Expr, Solution) -> Result<real, Exception>
  )
}

=== FILE: wrappers.dfy ===
/** Option, Result and the Python exception values the model raises and catches. */
module Wrappers {

  datatype Option<+T> = None | Some(value: T)

  datatype Result<+T, +E> = Success(value: T) | Failure(error: E)

  /** The class of a Python exception, as far as any caller tells them apart. */
  datatype ErrorKind = ValueError | TypeError | AttributeError | SympifyError | OtherError(name: string)

  /** A raised exception: its class and the text `str(e)` gives. */
  datatype Exception = Exception(kind: ErrorKind, text: string)

  /**
   * A list comprehension whose element expression may raise: the values in
   * order, or the exception of the first element that raised.
   */
  function MapResult<A, B>(f: A -> Result<B, Exception>, xs: seq<A>): (r: Result<seq<B>, Exception>)
    ensures r.Success? ==> |r.value| == |xs| && forall i :: 0 <= i < |xs| ==> f(xs[i]) == Success(r.value[i])
    ensures r.Failure? <==> exists i :: 0 <= i < |xs| && f(xs[i]).Failure?
    ensures r.Failure? ==> exists i :: 0 <= i < |xs| && f(xs[i]) == Failure(r.error)
                                     && forall j :: 0 <= j < i ==> f(xs[j]).Success?
    decreases |xs|
  {
    if xs == [] then Success([])
    else
      match MapResult(f, xs[..|xs| - 1])
      case Failure(e) => Failure(e)
      case Success(init) =>
        match f(xs[|xs| - 1])
        case Failure(e) => Failure(e)
        case Success(last) => Success(init + [last])
  }

  /** Once a prefix raises, the rest of the comprehension is never evaluated. */
  lemma {:induction false} MapResultPrefixFailure<A, B>(f: A -> Result<B, Exception>, xs: seq<A>, n: nat)
    requires n <= |xs| && MapResult(f, xs[..n]).Failure?
    ensures MapResult(f, xs) == MapResult(f, xs[..n])
    decreases |xs|
  {
    if n < |xs| {
      assert xs[..|xs| - 1][..n] == xs[..n];
      MapResultPrefixFailure(f, xs[..|xs| - 1], n);
    } else {
      assert xs[..n] == xs;
    }
  }
}
